=== FILE: README.md ===
# ca-migrate core, modelled in Dafny

`ca-migrate` copies Clarity PPM records from one server to another. It uses
XOG, the XML Open Gateway. A read request (a `NikuDataBus` document) is
wrapped in a SOAP 1.1 envelope and POSTed to the source instance. The reply
is classified as success or one of two XOG failures, and a `Skip` cursor in
the reply asks for the next page. Every page read is POSTed to the
destination instance.

This project models that core in nine modules:

- `Wrappers` / `Steps` (`wrappers.dfy`): `Option`, `Result`, and `Collect`. `Collect` runs fallible steps in order, and the first failure wins, as a raised exception does.
- `Errors` (`errors.dfy`): every exception the core raises, as one datatype.
- `Text` (`text.dfy`): Python's `str(int)`, `int(str)`, `strftime` padding, `",".join` and `str.split`.
- `Tree` (`tree.dfy`): an lxml element as a value (tag, ordered attributes, text, children) and the ElementPath lookups (`find`, `findtext`, `.//`, `get`).
- `Wire` (`wire.dfy`): `ca_migrate.xml`. This covers `serialize`, `make_envelope` and `make_content_package_query`. The last one mutates the caller's node, so it is a method on a `Node` object.
- `Objects` (`objects.dfy`): `ca_migrate.objects.xml`. This covers the filters and their XML, query classes, `DataBus` with its validation and `as_xml`, `ContentPack` grouping, and the `Project` / `Other` builders. `as_xml` and `ContentPack.__init__` are loops in the source. They are methods here, proved equal to the functions that specify them.
- `Classifier` (`classifier.dfy`): `get_databus` and `try_error`.
- `Gateway` (`client.dfy`): the `Client` class. It holds the session, `run_xog`, `login` and `logout`. The gateway it talks to is a script of replies, consumed one per POST, and every POST is logged.
- `Pipeline` (`pipeline.dfy`): `Xogger`. This covers `aiter_paginate` / `_aiter_paginate_stream` as a loop over the source client, and `migrate` with its checks, its pack normalisation and its delivery to the destination. Each method is tied to a specification function, and the pagination contract is proved about that function.

## Model

| member | source | states |
|---|---|---|
| Text.IntToDecimal | src/ca_migrate/xml.py:37-38 | `str(i)`: at least one character, a leading `-` exactly for negative values, digits after it, and no leading zero (`0` alone for zero) |
| Text.ParseInt | src/ca_migrate/migrator.py:294 | `int(text)` accepts exactly a non-empty run of digits, or one of at least one digit after a single `+` or `-`, and gives its signed decimal value; everything else is refused |
| Text.DecimalRoundTrip | src/ca_migrate/xml.py:37-38 | reading back `str(i)` with `int` gives `i`, for every integer |
| Text.Pad2 | src/ca_migrate/xml.py:39-44 | the `%m %d %H %M %S` field is two digits whose value is the number |
| Text.Pad4 | src/ca_migrate/xml.py:39-44 | the `%Y` field is four digits whose value is the year |
| Text.SplitJoin | src/ca_migrate/objects/xml.py:40 | splitting a comma-joined list at commas gives the parts back when no part holds a comma |
| Tree.GetAttr | src/ca_migrate/migrator.py:279 | `el.get(name)` finds a value exactly when the element has that attribute, and that value is the attribute's own |
| Tree.FirstWithTag | src/ca_migrate/migrator.py:270 | finds nothing exactly when no element has the tag, else the first one that has it |
| Tree.ChildText | src/ca_migrate/migrator.py:287-288 | `findtext(tag)` is absent exactly when `find(tag)` is |
| Tree.DescendantText | src/ca_migrate/migrator.py:111 | `findtext(".//tag")` is absent exactly when `find(".//tag")` is |
| Tree.AppendChild | src/ca_migrate/xml.py:106 | appending keeps tag, attributes and text; the child goes last after the old children |
| Wire.Serialize | src/ca_migrate/xml.py:30-50 | refused exactly for a value of none of the five kinds, with the type error naming its type |
| Wire.SerializeBool | src/ca_migrate/xml.py:32-36 | a custom boolean field gives `1`/`0`; any other boolean gives `true`/`false` and never a digit, because the bool cases come before the int case |
| Wire.SerializeIntRoundTrip | src/ca_migrate/xml.py:37-38 | an integer gives its decimal text whatever `custom_field` says, and that text reads back as the integer |
| Wire.SerializeDateLayout | src/ca_migrate/xml.py:43-44 | a date gives 10 characters `YYYY-MM-DD`; each field reads back from its fixed position |
| Wire.SerializeDateTimeLayout | src/ca_migrate/xml.py:39-42 | a datetime gives 19 characters `YYYY-MM-DDTHH:MM:SS`, so the datetime case wins over the date case; each field reads back |
| Wire.SerializeStrAndOther | src/ca_migrate/xml.py:45-50 | a string passes unchanged; any other kind raises the type error |
| Wire.MakeEnvelope | src/ca_migrate/xml.py:88-108 | an Envelope with exactly two children, Header then Body, none of the three with attributes or text; the Body holds only the body content, unchanged |
| Wire.EnvelopeAuth | src/ca_migrate/xml.py:93-103 | with 0 credentials the Header is empty; with 1, `Auth` holds only `SessionID`; with 2, `Username` then `Password`; with more, an empty `Auth` |
| Wire.SessionIdExcludesUsername | src/ca_migrate/xml.py:93-103 | the Header has a session id exactly for one credential, and it reads back as that credential; a user name appears exactly for two; never both |
| Wire.PackageQueryShape | src/ca_migrate/xml.py:60-67 | the query holds one Filter on `filter_by`; one code gives EQUALS with the code as text; several give OR with the codes comma-joined, which split back apart |
| Wire.MakeContentPackageQuery | src/ca_migrate/xml.py:53-69 | appends that query to the caller's node in place and returns the same node |
| Objects.FilterConstructors | src/ca_migrate/objects/xml.py:62-104 | `between` holds `[start, end]` with BETWEEN, `any` the given values with OR, `equals` one value with EQUALS, `after` one value with AFTER |
| Objects.ToXml | src/ca_migrate/objects/xml.py:33-42 | the tag is `FilterByCustomInfo` exactly for a custom field, else `Filter`, with `name` and `criteria` attributes, no children, and as text the values serialised in order with the filter's `custom_field`, comma-joined (empty for no values); it fails exactly when some value cannot be serialised |
| Objects.FilterText | src/ca_migrate/objects/xml.py:39-40 | splitting the text at commas gives back each value as serialised with the filter's own `custom_field`, when there is at least one and none contains a comma |
| Objects.LookupQueryAnyMatchesPackageQuery | src/ca_migrate/objects/xml.py:122-133 | `LookupQuery.any(codes)` renders as the same element `make_content_package_query` appends for those codes |
| Objects.NewHeader | src/ca_migrate/objects/xml.py:139-144 | a new header has version `8.0` and action `read` by default |
| Objects.NewDataBus | src/ca_migrate/objects/xml.py:149-151 | a request with no query is refused; any other keeps its header and queries |
| Objects.SetArg | src/ca_migrate/objects/xml.py:141 | `args[key] = value`: the key then reads as the value and every other key is unchanged; a known key keeps its place and a new key goes last |
| Objects.HeaderXml | src/ca_migrate/objects/xml.py:157-169 | the Header renders exactly when every argument value can be serialised |
| Objects.HeaderXmlShape | src/ca_migrate/objects/xml.py:157-169 | the Header carries version, action, objectType and `externalSource="NIKU"`, then one `args` child per argument in insertion order, serialised without `custom_field` |
| Objects.QueryXml | src/ca_migrate/objects/xml.py:171-175 | a query renders as an element tagged with its class name, without attributes or text, with one child per filter |
| Objects.QueryXmlShape | src/ca_migrate/objects/xml.py:171-175 | a query's element holds its filters' elements in order, and fails exactly when one of them does |
| Objects.DataBusXmlShape | src/ca_migrate/objects/xml.py:153-177 | `NikuDataBus`, without attributes or text, holds the Header first, then one element per query tagged with its class name; it fails exactly when some value cannot be serialised |
| Objects.HeaderAsXml | src/ca_migrate/objects/xml.py:157-169 | the loop over the arguments builds exactly the Header element specified, or stops at the first refused value |
| Objects.QueryAsXml | src/ca_migrate/objects/xml.py:172-175 | the loop over a query's filters builds exactly the query element specified, or stops at the first failing filter |
| Objects.AppendQueries | src/ca_migrate/objects/xml.py:171-175 | appends every query's element to the document in order, or gives the first query's error |
| Objects.AsXml | src/ca_migrate/objects/xml.py:153-177 | `as_xml` builds exactly the document the specification function gives, including which error it raises first |
| Objects.KindsInOrder | src/ca_migrate/objects/xml.py:184-187 | the pack's classes are listed without repeats |
| Objects.KindsInOrderMembers | src/ca_migrate/objects/xml.py:186-187 | a class is listed exactly when some query has it |
| Objects.KindsFollowFirstOccurrence | src/ca_migrate/objects/xml.py:184-187 | classes appear in the order of their first query, as dict insertion order keeps them |
| Objects.GroupQueries | src/ca_migrate/objects/xml.py:183-187 | the grouped pack is well formed: one list per listed class, none else |
| Objects.NewContentPack | src/ca_migrate/objects/xml.py:183-187 | the constructor's loop, with `defaultdict(list)` starting a class empty, builds exactly the grouped pack |
| Objects.GroupQueriesStep | src/ca_migrate/objects/xml.py:186-187 | one more query extends its class's list by its filters; a new class goes last with its filters |
| Objects.FiltersOfKindAppend | src/ca_migrate/objects/xml.py:187 | one more query adds its filters to its own class only |
| Objects.GroupingKeepsFilters | src/ca_migrate/objects/xml.py:183-187 | grouping loses no filter and duplicates none: the pack holds exactly the filters of its queries |
| Objects.ToDataBus | src/ca_migrate/objects/xml.py:189-198 | an empty pack is refused; otherwise a `contentPack` request with default header and one query per class, in key order, holding that class's filters |
| Objects.PackToDataBus | src/ca_migrate/objects/xml.py:183-198 | a pack of queries converts exactly when there is at least one query; the request has one query per distinct class, in first-occurrence order, holding that class's filters in order |
| Objects.Project | src/ca_migrate/objects/xml.py:210-245 | a valid `project` read request: the twelve argument names in the fixed order, the two orderings as given, each `include_*` argument holding the option of that name, all filters in one `Query` |
| Objects.ProjectDefaults | src/ca_migrate/objects/xml.py:210-223 | with every keyword left out, a project read is ordered by `name` then `projectID` and includes nothing |
| Objects.ProjectRequestArgs | src/ca_migrate/objects/xml.py:225-241 | the rendered request lists the twelve `args` in order, the orderings as given and each flag as `true` or `false` according to the option of that name |
| Objects.OtherArgs | src/ca_migrate/objects/xml.py:259-265 | the five argument names in the fixed order, the orderings as given and each `include_*` argument holding the option of that name |
| Objects.Other | src/ca_migrate/objects/xml.py:248-270 | a valid read request with the five arguments in order, each holding the option of its name, and all filters in one `Query` |
| Objects.OtherDefaults | src/ca_migrate/objects/xml.py:248-256 | with every keyword left out, `Other` orders by `name` then `objectID` and includes nothing |
| Objects.OtherRequestsProjects | src/ca_migrate/objects/xml.py:258 | as written, `Other` requests object type `project`, never `otherInvestment` |
| Objects.OtherInvestment | src/ca_migrate/objects/xml.py:248-270 | the corrected builder: an `otherInvestment` read request with the same arguments, each holding the option of its name, and the same query |
| Classifier.BodyDataBusNone | src/ca_migrate/migrator.py:270 | `./soapenv:Body/NikuDataBus` finds nothing exactly when no Body child holds a `NikuDataBus` |
| Classifier.BodyDataBusFirst | src/ca_migrate/migrator.py:270 | otherwise it finds the `NikuDataBus` of the first Body that holds one |
| Classifier.GetDataBus | src/ca_migrate/migrator.py:269-273 | the payload is the `NikuDataBus` the path finds whenever it finds one, and the whole document exactly when it finds nothing |
| Classifier.GetDataBusOfEnvelope | src/ca_migrate/migrator.py:269-273 | for a reply shaped like a request envelope, the payload is the Body's `NikuDataBus`, or else the whole envelope |
| Classifier.SkipValuesEmpty | src/ca_migrate/migrator.py:293 | `.//Skip/@value` finds nothing exactly when no `Skip` carries a value |
| Classifier.SkipValuesFirst | src/ca_migrate/migrator.py:293-294 | the first value found is that of the first `Skip` in document order that carries one |
| Classifier.NextSkip | src/ca_migrate/migrator.py:293-294 | no cursor without an `XOGOutput` or without a `Skip` value below it; otherwise the first value, read by `int`, or `MalformedSkip` with that value when `int` refuses it |
| Classifier.TryError | src/ca_migrate/migrator.py:276-296 | a XOG failure is raised exactly when the status says FAILURE, on the whole document: `XogFailure` without `ErrorInformation`, else `XogError` with its `Severity` and `Description`, defaulting to FATAL and "Failed running XOG"; otherwise the payload and the cursor, or the cursor's parse error |
| Classifier.TryErrorWithoutOutput | src/ca_migrate/migrator.py:277-278 | a reply without `XOGOutput` succeeds with its payload and no cursor |
| Classifier.SkipRoundTrip | src/ca_migrate/migrator.py:293-296 | a `Skip` value written from `n` comes back as cursor `n` |
| Classifier.FailureReported | src/ca_migrate/migrator.py:279-290 | any document whose `XOGOutput` holds a FAILURE status raises `XogFailure` without `ErrorInformation`, else `XogError` with the severity and description given or their defaults FATAL and "Failed running XOG" |
| Classifier.StatusOtherThanFailure | src/ca_migrate/migrator.py:279-281 | a status other than exactly FAILURE never raises a XOG failure |
| Gateway.Envelope | src/ca_migrate/migrator.py:135-141 | a POST's envelope holds its body as the Body's only child |
| Gateway.Credentials | src/ca_migrate/migrator.py:135-141 | the session id, alone, is passed to `make_envelope` exactly when there is a session; nothing otherwise |
| Gateway.CredentialsCarrySession | src/ca_migrate/migrator.py:135-141 | a POST's Header carries exactly its session as `SessionID` and never a user name |
| Gateway.PostsIndex | src/ca_migrate/migrator.py:146-151 | the POSTs for a list of bodies carry those bodies one for one, on the XOG path, in the session |
| Gateway.CallOutcome | src/ca_migrate/migrator.py:146-154 | no reply is a connection fault; a non-2xx status raises; a 2xx XML reply is what `try_error` makes of its body, and a 2xx body that is not XML is a malformed reply |
| Gateway.LoginRequest | src/ca_migrate/migrator.py:99-104 | the `xog:Login` element holds the user name and the password |
| Gateway.LoginOutcome | src/ca_migrate/migrator.py:106-116 | a `XogException` becomes `AuthException` on its document and other failures pass through; a reply logs in exactly when it holds a `SessionID`, whose text is the new session |
| Gateway.LoginReplyGivesSession | src/ca_migrate/migrator.py:107-116 | a reply carrying only a `SessionID` logs in with that id |
| Gateway.RefusedLoginIsAuthFailure | src/ca_migrate/migrator.py:106-109 | a refused login surfaces as `AuthException`, never as `XogException` |
| Gateway.Client.constructor | src/ca_migrate/migrator.py:75-93 | the client starts with the XOG path and the optional session given |
| Gateway.Client.RunXog | src/ca_migrate/migrator.py:130-154 | one POST carrying `data` in the current session is logged, one reply is consumed and classified, and the session is unchanged |
| Gateway.Client.Login | src/ca_migrate/migrator.py:95-118 | POSTs the login in the current session; the session becomes the id read on success and stays as it was on every failure |
| Gateway.Client.Logout | src/ca_migrate/migrator.py:120-128 | without a session nothing is sent; with one, one `xog:Logout` is POSTed and its failure raised; the session is kept |
| Pipeline.WithSkipMovesCursor | src/ca_migrate/migrator.py:196 | writing the cursor sets `skip` and changes nothing else in the request |
| Pipeline.PaginateUnfolds | src/ca_migrate/migrator.py:186-196 | a run whose reply has a cursor is that round followed by the run from the request with the cursor written in |
| Pipeline.PaginateHalts | src/ca_migrate/migrator.py:188-195 | a run ends at a rendering error, at a failed POST, or at a reply without a cursor, with that page last |
| Pipeline.PaginateNumbersPages | src/ca_migrate/migrator.py:186 | pages are numbered 1, 2, 3, ... in the order they are read |
| Pipeline.PaginateChainsSkip | src/ca_migrate/migrator.py:188-196 | the first request is the one given, each request sent is its rendering, and each later request is the previous one with the previous cursor written in |
| Pipeline.PaginateStops | src/ca_migrate/migrator.py:189-195 | a run ends without error exactly when its last reply had no cursor, and then every POST was answered; a renderable request is POSTed at least once; there are never more pages than replies |
| Pipeline.PaginateUsesReplies | src/ca_migrate/migrator.py:189-193 | page `i` is reply `i`'s payload through the transform, and its cursor is reply `i`'s cursor |
| Pipeline.BodiesOfPages | src/ca_migrate/migrator.py:235-241 | the payloads of the pages read are the run's payloads in order |
| Pipeline.PagesOfIndex | src/ca_migrate/migrator.py:193 | the `i`-th page yielded is the `i`-th round's page |
| Pipeline.RequestsOfIndex | src/ca_migrate/migrator.py:188-189 | the `i`-th request POSTed is the `i`-th round's request |
| Pipeline.AnswersDrop | src/ca_migrate/migrator.py:189 | the replies left after `k` POSTs are the answers after the first `k` |
| Pipeline.Delivery | src/ca_migrate/migrator.py:235-241 | at most one POST per page; every page is POSTed when none is refused; a refusal comes after at least one POST |
| Pipeline.DeliverySucceeds | src/ca_migrate/migrator.py:235-243 | every page goes through exactly when the destination accepts each one; otherwise the last POST is the first refused and all before it were accepted |
| Pipeline.DeliveryRefused | src/ca_migrate/migrator.py:235-241 | after `i` accepted POSTs, a refusal of the next ends the delivery with its error |
| Pipeline.DeliveryAccepted | src/ca_migrate/migrator.py:235-243 | when the destination accepts the first `count` POSTs, all are made and none is refused |
| Pipeline.MigrateOutcome | src/ca_migrate/migrator.py:220-243 | a migration succeeds exactly when every read succeeds and the destination accepts every page, and then returns every payload in page order, each POSTed once; a failed read sends nothing |
| Pipeline.Plan | src/ca_migrate/migrator.py:216-245 | a request keeps the transform; a pack is run as the request `to_databus` builds, without the transform, or raises `to_databus`'s error; any other content raises `NotImplementedError` |
| Pipeline.PackIgnoresTransform | src/ca_migrate/migrator.py:217-219 | a pack is migrated without the caller's transform, and is refused exactly when it is empty |
| Pipeline.Xogger.constructor | src/ca_migrate/migrator.py:174-177 | the migrator holds the two clients given |
| Pipeline.Xogger.Paginate | src/ca_migrate/migrator.py:179-196 | the loop yields exactly the pages of the specified run and its error, and leaves the request with the last cursor written; the source client has POSTed exactly the run's requests in its session, one reply consumed per request |
| Pipeline.Xogger.Turn | src/ca_migrate/migrator.py:186-196 | one turn either ends the run, returning all of the run's pages, its error and its requests as POSTed, or moves one round of the specified run into the part done and returns the request with the new cursor, with one reply fewer left to consume |
| Pipeline.Xogger.Settle | src/ca_migrate/migrator.py:190-195 | an answered turn yields the transformed payload as its page; it is the last page exactly when the reply has no cursor, else the run goes on from the request with that cursor written in |
| Pipeline.Xogger.Fetch | src/ca_migrate/migrator.py:188-189 | renders the request and, only when it renders, POSTs it once and reads the next answer |
| Pipeline.Xogger.Deliver | src/ca_migrate/migrator.py:236-240 | one page POSTed to the destination in its session, reading its next answer |
| Pipeline.Xogger.DeliverPages | src/ca_migrate/migrator.py:235-243 | POSTs the pages in page order up to the first refusal, raising its error; without one, returns the pages |
| Pipeline.Xogger.Stream | src/ca_migrate/migrator.py:220-266 | the request branch: reads the source as specified, then delivers the pages; both clients' logs and results match the migration specification, and the request is left with the run's last cursor written |
| Pipeline.Xogger.Migrate | src/ca_migrate/migrator.py:198-266 | raises unless `src` and then `dest` are logged in, touching neither; a pack is migrated as its request without the transform; the result and both clients' logs match the migration specification; a request read is left with the last cursor written, anything else unchanged |

## Left out

- HTTP transport (`AsyncClient.post`, timeouts, TLS verification) is not modelled. A server is a script of replies, one per POST. An empty script is a connection fault, and a reply is either parsed XML, a body that is not XML, or a status outside 2xx.
- The `SessionIDAuth` hook (`Authtoken` header and `sessionId` cookie) is not modelled as headers. A logged POST records the session it was sent in, next to the body. The envelope it travels in is `Gateway.Envelope` of that record.
- lxml parsing and serialisation (`fromstring`, `to_bytes`, namespace maps, `QName`) are not modelled. A namespace prefix is part of the tag string.
- Concurrency in `migrate` is not modelled: the task group, the memory stream with its `buffer`, cancellation, and destination POSTs that overlap or finish out of order. The model takes one order the concurrent parts can run in: the source is read to the end, then the pages are POSTed to the destination in page order.
- Pipeline.Xogger.Stream: when the source fails part way, the model sends nothing to the destination. In the source, pages already received may have been POSTed before the failure cancels the task group. A task group's error reaches the caller inside an exception group, which the model reports as the single error.
- Pipeline.Xogger.Paginate: the async generator is consumed to its end. A consumer that stops early is not modelled.
- Pipeline.Xogger.Migrate: requires `src != dest`. Two different clients are needed because the two logs are stated separately. A `Xogger` built with the same client twice is not modelled.
- Pipeline.Xogger.Migrate: the `assert`s on the login state are modelled as a `NotLoggedIn` error. Running under `python -O`, which drops them, is not modelled.
- Pipeline.Xogger.Paginate is generic in the request type, with rendering and cursor writing as parameters. `Stream` instantiates it with `Objects.DataBusXml` and `WithSkip`, the function that `Objects.AsXml` is proved equal to. In place of the in-place write of `databus.header.args["skip"]`, the request with its last cursor is returned; `Stream` returns it too, and `Migrate` returns the caller's content as the call leaves it. Aliasing is not modelled: another holder of the same `DataBus` does not see the cursor.
- Pipeline.PaginateSpec: a run ends because the gateway's script of replies is finite. `aiter_paginate` itself never stops against a gateway that keeps answering with a `Skip`, even the same one, and the model does not capture that endless run.
- `transform_fn` is modelled as a total, pure function. A transform that raises or has side effects is not modelled.
- `__aenter__` / `__aexit__` (open the HTTP client, log out on exit) are not modelled: they are resource handling.
- `Client.__init__`'s `api_ctx`, `base_url`, `verify` and `timeout` only configure HTTP and are not modelled. `xog_ctx` is a parameter of `Gateway.Client`'s constructor; its default, `/niku/xog`, is not modelled.
- The Protocol declarations of `objects/__init__.py` are not modelled.
- Wire.Serialize: only years 1000–9999 and whole seconds are modelled. `strftime` padding for years below 1000 depends on the platform, and microseconds are not printed.
- Text.ParseInt: accepts an optional sign and ASCII digits only. Python's `int` also accepts surrounding whitespace, underscores between digits and non-ASCII digits.
- The commented sample documents at the end of `objects/xml.py` are not modelled.

## Findings

| source | as written | input that shows it | evidently intended | confidence | as-written member | corrected member |
|---|---|---|---|---|---|---|
| src/ca_migrate/objects/xml.py:258 | `Other(...)` builds its header with object type `project` | `Other([])`: its header says `project` while its arguments are the other-investment ones (`order_by_2="objectID"`) | object type `otherInvestment`, the one value of the header's object types that nothing else uses, matching the other-investment read sample in the same file | medium, not executed | Objects.OtherRequestsProjects | Objects.OtherInvestment |

=== FILE: classifier.dfy ===
/**
 * How a XOG reply document is read (`get_databus` and `try_error`): where the
 * payload sits, whether the gateway reported a failure, and the `Skip`
 * cursor that asks for the next page of a read.
 */
module Classifier {
  import opened Wrappers
  import opened Text
  import opened Tree
  import opened Errors
  import opened Wire

  /**
   * `./soapenv:Body/NikuDataBus` over the children `cs` of the root: the first
   * `NikuDataBus` child of the first `soapenv:Body` that has one.
   */
  function BodyDataBus(cs: seq<Element>): (r: Option<Element>)
    ensures r.Some? ==> r.value.tag == "NikuDataBus"
  {
    if cs == [] then None
    else if cs[0].tag == "soapenv:Body" && FindChild(cs[0], "NikuDataBus").Some? then FindChild(cs[0], "NikuDataBus")
    else BodyDataBus(cs[1..])
  }

  /** The path finds nothing exactly when no `soapenv:Body` child holds a `NikuDataBus`. */
  lemma {:induction false} BodyDataBusNone(cs: seq<Element>)
    ensures BodyDataBus(cs).None? <==>
      forall i :: 0 <= i < |cs| && cs[i].tag == "soapenv:Body" ==> FindChild(cs[i], "NikuDataBus").None?
  {
    if cs != [] {
      BodyDataBusNone(cs[1..]);
      assert forall i :: 1 <= i < |cs| ==> cs[i] == cs[1..][i - 1];
    }
  }

  /** Otherwise it finds the `NikuDataBus` of the first Body child that holds one. */
  lemma {:induction false} BodyDataBusFirst(cs: seq<Element>, i: nat)
    requires i < |cs| && cs[i].tag == "soapenv:Body" && FindChild(cs[i], "NikuDataBus").Some?
    requires forall j :: 0 <= j < i && cs[j].tag == "soapenv:Body" ==> FindChild(cs[j], "NikuDataBus").None?
    ensures BodyDataBus(cs) == FindChild(cs[i], "NikuDataBus")
  {
    if i > 0 {
      var tail := cs[1..];
      assert forall j :: 0 <= j < i - 1 ==> tail[j] == cs[j + 1];
      BodyDataBusFirst(tail, i - 1);
    }
  }

  /** `get_databus`: the `NikuDataBus` inside the SOAP Body when there is one, else the whole document. */
  function GetDataBus(root: Element): (r: Element)
    ensures r == root || r.tag == "NikuDataBus"
    ensures BodyDataBus(root.children).None? ==> r == root
    ensures BodyDataBus(root.children).Some? ==> r == BodyDataBus(root.children).value
  {
    match BodyDataBus(root.children)
    case None => root
    case Some(databus) => databus
  }

  /** A reply wrapped like a request: the payload is the Body's `NikuDataBus`, or the whole envelope when the Body holds something else. */
  lemma GetDataBusOfEnvelope(body: Element, creds: seq<string>)
    ensures body.tag == "NikuDataBus" ==> GetDataBus(MakeEnvelope(body, creds)) == body
    ensures body.tag != "NikuDataBus" ==> GetDataBus(MakeEnvelope(body, creds)) == MakeEnvelope(body, creds)
  {
    var env := MakeEnvelope(body, creds);
    assert env.children[0].tag != "soapenv:Body";
    assert FindChild(env.children[1], "NikuDataBus") == if body.tag == "NikuDataBus" then Some(body) else None;
    var rest := env.children[1..];
    assert rest[0] == env.children[1] && rest[1..] == [];
    assert BodyDataBus(env.children) == BodyDataBus(rest);
    assert BodyDataBus(rest) == if body.tag == "NikuDataBus" then Some(body) else None;
  }

  /** `.//Skip/@value` over a document-order list: the `value` of each `Skip` that carries one, in order. */
  function SkipValues(es: seq<Element>): (vs: seq<string>)
    ensures |vs| <= |es|
  {
    if es == [] then []
    else if es[0].tag == "Skip" && GetAttr(es[0], "value").Some? then [GetAttr(es[0], "value").value] + SkipValues(es[1..])
    else SkipValues(es[1..])
  }

  /** The path finds no value exactly when no `Skip` carries one. */
  lemma {:induction false} SkipValuesEmpty(es: seq<Element>)
    ensures SkipValues(es) == [] <==> forall i :: 0 <= i < |es| && es[i].tag == "Skip" ==> GetAttr(es[i], "value").None?
  {
    if es != [] {
      SkipValuesEmpty(es[1..]);
      assert forall i :: 1 <= i < |es| ==> es[i] == es[1..][i - 1];
    }
  }

  /** The first value the path finds is that of the first `Skip` that carries one. */
  lemma {:induction false} SkipValuesFirst(es: seq<Element>, i: nat)
    requires i < |es| && es[i].tag == "Skip" && GetAttr(es[i], "value").Some?
    requires forall j :: 0 <= j < i && es[j].tag == "Skip" ==> GetAttr(es[j], "value").None?
    ensures SkipValues(es) != [] && SkipValues(es)[0] == GetAttr(es[i], "value").value
  {
    if i > 0 {
      var tail := es[1..];
      assert forall j :: 0 <= j < i - 1 ==> tail[j] == es[j + 1];
      SkipValuesFirst(tail, i - 1);
    }
  }

  /** The gateway's verdict: an `XOGOutput` below the document whose `Status` says `state="FAILURE"`. */
  predicate ReportsFailure(el: Element)
  {
    match FindDescendant(el, "XOGOutput")
    case None => false
    case Some(out) =>
      match FindChild(out, "Status")
      case None => false
      case Some(status) => GetAttr(status, "state") == Some("FAILURE")
  }

  /** The `Skip` cursor below the first `XOGOutput`: absent, an integer, or text `int()` refuses. */
  function NextSkip(el: Element): (r: Result<Option<int>, Error>)
    ensures FindDescendant(el, "XOGOutput").None? ==> r == Ok(None)
    ensures r.Err? ==> r.error.MalformedSkip?
    ensures FindDescendant(el, "XOGOutput").Some? ==>
      var vs := SkipValues(Descendants(FindDescendant(el, "XOGOutput").value));
      && (vs == [] ==> r == Ok(None))
      && (vs != [] && ParseInt(vs[0]).Some? ==> r == Ok(Some(ParseInt(vs[0]).value)))
      && (vs != [] && ParseInt(vs[0]).None? ==> r == Err(MalformedSkip(vs[0])))
  {
    match FindDescendant(el, "XOGOutput")
    case None => Ok(None)
    case Some(out) =>
      var values := SkipValues(Descendants(out));
      if values == [] then Ok(None)
      else
        match ParseInt(values[0])
        case None => Err(MalformedSkip(values[0]))
        case Some(n) => Ok(Some(n))
  }

  /**
   * `try_error`: a reply whose status is FAILURE raises `XogFailureException`
   * when it carries no `ErrorInformation` and `XogException` otherwise (with
   * severity FATAL and description "Failed running XOG" by default); any
   * other reply yields its payload and its `Skip` cursor.
   */
  function TryError(el: Element): (r: Result<(Element, Option<int>), Error>)
    ensures (r.Err? && (r.error.XogFailure? || r.error.XogError?)) <==> ReportsFailure(el)
    ensures r.Err? ==> r.error.XogFailure? || r.error.XogError? || r.error.MalformedSkip?
    ensures r.Err? && (r.error.XogFailure? || r.error.XogError?) ==> r.error.doc == el
    ensures ReportsFailure(el) ==>
      var out := FindDescendant(el, "XOGOutput").value;
      match FindChild(out, "ErrorInformation")
      case None => r == Err(XogFailure(el))
      case Some(info) =>
        r == Err(XogError(ChildText(info, "Severity").GetOr("FATAL"), ChildText(info, "Description").GetOr("Failed running XOG"), el))
    ensures !ReportsFailure(el) ==> match NextSkip(el)
                                     case Ok(skip) => r == Ok((GetDataBus(el), skip))
                                     case Err(e) => r == Err(e)
  {
    var output := FindDescendant(el, "XOGOutput");
    var status := if output.Some? then FindChild(output.value, "Status") else None;
    if status.Some? && GetAttr(status.value, "state").GetOr("OK") == "FAILURE" then
      match FindChild(output.value, "ErrorInformation")
      case None => Err(XogFailure(el))
      case Some(info) =>
        Err(XogError(ChildText(info, "Severity").GetOr("FATAL"),
                     ChildText(info, "Description").GetOr("Failed running XOG"), el))
    else
      match NextSkip(el)
      case Err(e) => Err(e)
      case Ok(skip) => Ok((GetDataBus(el), skip))
  }

  /** A reply with no `XOGOutput` at all is a success without a next page. */
  lemma TryErrorWithoutOutput(el: Element)
    requires FindDescendant(el, "XOGOutput").None?
    ensures TryError(el) == Ok((GetDataBus(el), None))
  {
  }

  /** The cursor reads back: a `Skip` value written from `n` yields `n` as the next skip. */
  lemma SkipRoundTrip(el: Element, n: int)
    requires !ReportsFailure(el) && FindDescendant(el, "XOGOutput").Some?
    requires var vs := SkipValues(Descendants(FindDescendant(el, "XOGOutput").value));
      vs != [] && vs[0] == IntToDecimal(n)
    ensures TryError(el) == Ok((GetDataBus(el), Some(n)))
  {
    DecimalRoundTrip(n);
  }

  /** `XOGOutput` holding a FAILURE status and, optionally, an `ErrorInformation` with severity and description children. */
  function FailedOutput(info: Option<(Option<string>, Option<string>)>): Element
  {
    var status := Element("Status", [("state", "FAILURE")], None, []);
    match info
    case None => Element("XOGOutput", [], None, [status])
    case Some((severity, description)) =>
      var parts := (if severity.Some? then [WithText("Severity", severity.value)] else [])
                 + (if description.Some? then [WithText("Description", description.value)] else []);
      Element("XOGOutput", [], None, [status, Element("ErrorInformation", [], None, parts)])
  }

  /**
   * Any reply whose first `XOGOutput` holds a FAILURE status raises on the
   * whole document: `XogFailure` without `ErrorInformation`, otherwise
   * `XogError` with the severity and description given, FATAL and
   * "Failed running XOG" standing in for the ones left out.
   */
  lemma FailureReported(el: Element, info: Option<(Option<string>, Option<string>)>)
    requires FindDescendant(el, "XOGOutput") == Some(FailedOutput(info))
    ensures info.None? ==> TryError(el) == Err(XogFailure(el))
    ensures info.Some? ==>
      TryError(el) == Err(XogError(info.value.0.GetOr("FATAL"), info.value.1.GetOr("Failed running XOG"), el))
  {
    var out := FailedOutput(info);
    assert FindChild(out, "Status") == Some(out.children[0]);
    assert GetAttr(out.children[0], "state") == Some("FAILURE");
    if info.Some? {
      var (severity, description) := info.value;
      var errorInfo := out.children[1];
      assert out.children[1..] == [errorInfo];
      assert FindChild(out, "ErrorInformation") == Some(errorInfo);
      var parts := errorInfo.children;
      assert "Severity"[0] != "Description"[0];
      if severity.Some? {
        assert FindChild(errorInfo, "Severity") == Some(WithText("Severity", severity.value));
        if description.Some? {
          assert parts[1..] == [WithText("Description", description.value)];
          assert FirstWithTag(parts[1..], "Description") == Some(WithText("Description", description.value));
        } else {
          assert parts[1..] == [];
        }
      } else {
        assert FindChild(errorInfo, "Severity") == None;
      }
    }
  }

  /** A status other than FAILURE, or none, never raises: `state` defaults to OK. */
  lemma StatusOtherThanFailure(el: Element, out: Element, status: Element)
    requires FindDescendant(el, "XOGOutput") == Some(out) && FindChild(out, "Status") == Some(status)
    requires GetAttr(status, "state") != Some("FAILURE")
    ensures TryError(el).Ok? || TryError(el).error.MalformedSkip?
  {
  }
}

=== FILE: client.dfy ===
/**
 * The XOG client: one endpoint, an optional session, and the POST that
 * carries an envelope to the gateway and classifies the reply. The gateway
 * itself is a script of replies consumed one per POST; every POST made is
 * kept in order.
 */
module Gateway {
  import opened Wrappers
  import opened Tree
  import opened Errors
  import opened Wire
  import opened Classifier

  /** What the gateway does with one POST. */
  datatype Exchange =
      /** An HTTP reply with its status and its body, parsed as XML. */
    | Reply(status: int, body: Element)
      /** An HTTP reply whose body is not XML. */
    | Garbled(status: int)
      /** No reply: the connection failed. */
    | NoReply

  /**
   * One POST as sent: the XOG path, the session presented as `Authtoken`
   * header and `sessionId` cookie, and the element the envelope carries.
   */
  datatype Post = Post(path: string, authToken: Option<string>, body: Element)

  /** The envelope a POST carries on the wire: its body, wrapped with the session's credentials. */
  function Envelope(p: Post): (env: Element)
    ensures env.tag == "soapenv:Envelope" && |env.children| == 2
    ensures env.children[1].tag == "soapenv:Body" && env.children[1].children == [p.body]
  {
    MakeEnvelope(p.body, Credentials(p.authToken))
  }

  /** The POSTs that carry `bodies` one after another. */
  function Posts(path: string, auth: Option<string>, bodies: seq<Element>): (ps: seq<Post>)
    ensures |ps| == |bodies|
  {
    if bodies == [] then [] else Posts(path, auth, bodies[..|bodies| - 1]) + [Post(path, auth, bodies[|bodies| - 1])]
  }

  /** The `i`-th POST carries the `i`-th body, on the same path and in the same session as the others. */
  lemma {:induction false} PostsIndex(path: string, auth: Option<string>, bodies: seq<Element>)
    ensures forall i :: 0 <= i < |bodies| ==> Posts(path, auth, bodies)[i] == Post(path, auth, bodies[i])
  {
    if bodies != [] {
      var init := bodies[..|bodies| - 1];
      PostsIndex(path, auth, init);
      assert forall i :: 0 <= i < |init| ==> init[i] == bodies[i];
    }
  }

  /** What is left of `s` after its first `k` items are used up (of a script, after `k` POSTs). */
  function Drop<T>(s: seq<T>, k: nat): (r: seq<T>)
    ensures |r| == if k >= |s| then 0 else |s| - k
  {
    if k >= |s| then [] else s[k..]
  }

  function Head(script: seq<Exchange>): Option<Exchange>
  {
    if script == [] then None else Some(script[0])
  }

  function Rest(script: seq<Exchange>): (r: seq<Exchange>)
    ensures |r| == if script == [] then 0 else |script| - 1
  {
    if script == [] then [] else script[1..]
  }

  /**
   * The POST followed by `raise_for_status`, `fromstring` and `try_error`:
   * a missing reply is a connection fault, a status outside 2xx raises,
   * a body that is not XML raises, and a parsed body is classified.
   */
  function CallOutcome(x: Option<Exchange>): (r: Result<(Element, Option<int>), Error>)
    ensures r.Ok? ==> x.Some? && x.value.Reply? && 200 <= x.value.status < 300 && TryError(x.value.body) == r
    ensures (x.None? || x.value.NoReply?) ==> r == Err(Unreachable)
    ensures x.Some? && !x.value.NoReply? && !(200 <= x.value.status < 300) ==> r == Err(HttpStatus(x.value.status))
    ensures x.Some? && x.value.Reply? && 200 <= x.value.status < 300 ==> r == TryError(x.value.body)
    ensures x.Some? && x.value.Garbled? && 200 <= x.value.status < 300 ==> r == Err(MalformedReply)
  {
    match x
    case None => Err(Unreachable)
    case Some(NoReply) => Err(Unreachable)
    case Some(Garbled(status)) =>
      if 200 <= status < 300 then Err(MalformedReply) else Err(HttpStatus(status))
    case Some(Reply(status, body)) =>
      if 200 <= status < 300 then TryError(body) else Err(HttpStatus(status))
  }

  /** The extra arguments `run_xog` passes to `make_envelope`: the session id, when there is a session. */
  function Credentials(auth: Option<string>): (creds: seq<string>)
    ensures |creds| <= 1 && (creds == [] <==> auth.None?)
    ensures auth.Some? ==> creds == [auth.value]
  {
    if auth.None? then [] else [auth.value]
  }

  /**
   * A POST's Header tells its session exactly: its `xog:SessionID` reads
   * back as the session, and it never carries a user name.
   */
  lemma CredentialsCarrySession(p: Post)
    ensures var h := EnvelopeHeader(Envelope(p));
      DescendantText(h, "xog:SessionID") == p.authToken && FindDescendant(h, "xog:Username").None?
  {
    SessionIdExcludesUsername(p.body, Credentials(p.authToken));
  }

  /** The `xog:Login` request: the user name and password as its two children. */
  function LoginRequest(username: string, password: string): (e: Element)
    ensures e.tag == "xog:Login"
    ensures ChildText(e, "xog:Username") == Some(username) && ChildText(e, "xog:Password") == Some(password)
  {
    var e := Element("xog:Login", [], None, [WithText("xog:Username", username), WithText("xog:Password", password)]);
    assert e.children[1..] == [WithText("xog:Password", password)];
    assert "xog:Username"[4] != "xog:Password"[4];
    assert FirstWithTag(e.children[1..], "xog:Password") == Some(WithText("xog:Password", password));
    e
  }

  /**
   * How `login` reads the outcome of its `run_xog`: an `XogException` becomes
   * an `AuthException` on the same document, any other failure passes
   * through, and a reply without `xog:SessionID` is refused; otherwise the
   * session id (possibly empty text) is the new session.
   */
  function LoginOutcome(call: Result<(Element, Option<int>), Error>): (r: Result<string, Error>)
    ensures r.Err? ==> !r.error.XogError?
    ensures call.Err? ==> r.Err? && r.error == if call.error.XogError? then AuthFailure(call.error.doc) else call.error
    ensures call.Ok? ==> (r.Ok? <==> FindDescendant(call.value.0, "xog:SessionID").Some?)
    ensures call.Ok? && r.Err? ==> r.error == AuthFailure(call.value.0)
    ensures r.Ok? ==> call.Ok? && DescendantText(call.value.0, "xog:SessionID") == Some(r.value)
  {
    match call
    case Err(XogError(_, _, doc)) => Err(AuthFailure(doc))
    case Err(e) => Err(e)
    case Ok((resp, _)) =>
      match DescendantText(resp, "xog:SessionID")
      case None => Err(AuthFailure(resp))
      case Some(token) => Ok(token)
  }

  /** A reply envelope whose Body holds only `xog:SessionID` logs in with that id. */
  lemma LoginReplyGivesSession(token: string)
    ensures var doc := MakeEnvelope(WithText("xog:SessionID", token), []);
      LoginOutcome(CallOutcome(Some(Reply(200, doc)))) == Ok(token)
  {
    var session := WithText("xog:SessionID", token);
    var doc := MakeEnvelope(session, []);
    var header := doc.children[0];
    var body := doc.children[1];
    var all := [header, body, session];
    assert Descendants(doc) == all by {
      assert Preorder(doc.children[1..]) == [body] + Preorder(body.children) + Preorder([]);
      assert Preorder(body.children) == [session] + Preorder([]) + Preorder([]);
    }
    assert "soapenv:Header"[0] != "XOGOutput"[0] && "soapenv:Body"[0] != "XOGOutput"[0] && "xog:SessionID"[0] != "XOGOutput"[0];
    assert FirstWithTag(all[2..], "XOGOutput") == None;
    assert FirstWithTag(all[1..], "XOGOutput") == None;
    assert FindDescendant(doc, "XOGOutput") == None;
    assert "soapenv:Header"[0] != "xog:SessionID"[0] && "soapenv:Body"[0] != "xog:SessionID"[0];
    assert FirstWithTag(all[2..], "xog:SessionID") == Some(session);
    assert FirstWithTag(all[1..], "xog:SessionID") == Some(session);
    assert FindDescendant(doc, "xog:SessionID") == Some(session);
    GetDataBusOfEnvelope(session, []);
  }

  /** A session the gateway refuses with a FAILURE status surfaces as `AuthException`, never as `XogException`. */
  lemma RefusedLoginIsAuthFailure(doc: Element)
    requires ReportsFailure(doc) && FindChild(FindDescendant(doc, "XOGOutput").value, "ErrorInformation").Some?
    ensures LoginOutcome(CallOutcome(Some(Reply(200, doc)))) == Err(AuthFailure(doc))
  {
  }

  class Client {
    /** The XOG path on the server (`xog_ctx`). */
    const xogCtx: string
    /** The session id, when logged in (`auth`). */
    var auth: Option<string>
    /** The gateway's replies still to come, one per POST. */
    var server: seq<Exchange>
    /** Every POST made so far, in order. */
    var posted: seq<Post>

    constructor(xogCtx: string, sessionId: Option<string>, server: seq<Exchange>)
      ensures this.xogCtx == xogCtx && auth == sessionId && this.server == server && posted == []
    {
      this.xogCtx := xogCtx;
      auth := sessionId;
      this.server := server;
      posted := [];
    }

    /**
     * Since the log was `log` and the script `script`, exactly the POSTs
     * carrying `sent` have been made, in the current session, each
     * consuming one reply.
     */
    ghost predicate Sent(log: seq<Post>, script: seq<Exchange>, sent: seq<Element>)
      reads this
    {
      posted == log + Posts(xogCtx, auth, sent) && server == Drop(script, |sent|)
    }

    /** `run_xog`: wrap `data` in an envelope carrying the session, POST it and classify the reply. */
    method RunXog(data: Element) returns (r: Result<(Element, Option<int>), Error>)
      modifies this
      ensures auth == old(auth)
      ensures posted == old(posted) + [Post(xogCtx, old(auth), data)]
      ensures server == Rest(old(server))
      ensures r == CallOutcome(Head(old(server)))
    {
      posted := posted + [Post(xogCtx, auth, data)];
      var reply := Head(server);
      server := Rest(server);
      r := CallOutcome(reply);
    }

    /**
     * `login`: POST an `xog:Login` in the current session; on success the
     * session id found anywhere in the reply payload becomes the session,
     * on failure the session stays as it was.
     */
    method Login(username: string, password: string) returns (r: Result<(), Error>)
      modifies this
      ensures posted == old(posted) + [Post(xogCtx, old(auth), LoginRequest(username, password))]
      ensures server == Rest(old(server))
      ensures var outcome := LoginOutcome(CallOutcome(Head(old(server))));
        && (r.Ok? <==> outcome.Ok?)
        && (outcome.Err? ==> r.error == outcome.error)
        && auth == if outcome.Ok? then Some(outcome.value) else old(auth)
    {
      var call := RunXog(LoginRequest(username, password));
      var outcome := LoginOutcome(call);
      if outcome.Err? {
        return Err(outcome.error);
      }
      auth := Some(outcome.value);
      r := Ok(());
    }

    /**
     * `logout`: nothing without a session; otherwise POST an `xog:Logout`
     * and discard the reply, raising as `run_xog` does. The session is kept.
     */
    method Logout() returns (r: Result<(), Error>)
      modifies this
      ensures auth == old(auth)
      ensures old(auth).None? ==> posted == old(posted) && server == old(server) && r == Ok(())
      ensures old(auth).Some? ==>
        && posted == old(posted) + [Post(xogCtx, old(auth), Bare("xog:Logout"))]
        && server == Rest(old(server))
        && (r.Err? <==> CallOutcome(Head(old(server))).Err?)
        && (r.Err? ==> r.error == CallOutcome(Head(old(server))).error)
    {
      if auth.None? {
        return Ok(());
      }
      var call := RunXog(Bare("xog:Logout"));
      if call.Err? {
        return Err(call.error);
      }
      r := Ok(());
    }
  }
}

=== FILE: errors.dfy ===
/** The exceptions the migration core raises, as one closed taxonomy. */
module Errors {
  import opened Tree

  datatype Error =
      /** `TypeError` from `serialize`: a value of an unsupported kind. */
    | UnsupportedValue(typeName: string)
      /** `ValueError` from `DataBus.__post_init__`: no query at all. */
    | EmptyDataBus
      /** `ValueError` from `ContentPack.to_databus`: the pack holds no query. */
    | EmptyContentPack
      /** `ValueError` from `int(...)` on a `Skip/@value` that is not an integer. */
    | MalformedSkip(text: string)
      /** `XogFailureException`: status FAILURE without any ErrorInformation. */
    | XogFailure(doc: Element)
      /** `XogException`: status FAILURE with severity and description. */
    | XogError(severity: string, description: string, doc: Element)
      /** `AuthException`: login refused or no session id in the reply. */
    | AuthFailure(doc: Element)
      /** `HTTPStatusError` from `raise_for_status` on a non-2xx reply. */
    | HttpStatus(code: int)
      /** A connection fault: the endpoint gave no reply at all. */
    | Unreachable
      /** `XMLSyntaxError` from parsing a 2xx reply body that is not XML. */
    | MalformedReply
      /** `AssertionError` in `migrate`: the `src` or `dest` client is not logged in. */
    | NotLoggedIn(client: string)
      /** `NotImplementedError` in `migrate`: content that is neither pack nor bus. */
    | UnsupportedContent
}

=== FILE: objects.dfy ===
/**
 * The query model of `ca_migrate.objects.xml`: XOG filters, query groups,
 * the `NikuDataBus` read request with its header arguments, content packs
 * that group filters by query class, and the `Project` / `Other` builders.
 */
module Objects {
  import opened Wrappers
  import opened Steps
  import opened Text
  import opened Tree
  import opened Errors
  import opened Wire

  datatype Criteria = EQUALS | OR | BETWEEN | AFTER {
    function Name(): string {
      match this
      case EQUALS => "EQUALS"
      case OR => "OR"
      case BETWEEN => "BETWEEN"
      case AFTER => "AFTER"
    }
  }

  /** `Filter(column, criteria, value, custom_field)`. */
  datatype Filter = Filter(column: string, criteria: Criteria, values: seq<Value>, customField: bool)

  /** `Filter.between(column, start, end)`. */
  function Between(column: string, start: Value, end: Value, customField: bool): Filter
  {
    Filter(column, BETWEEN, [start, end], customField)
  }

  /** `Filter.any(column, values)` (exported as `any_match`). */
  function AnyMatch(column: string, values: seq<Value>, customField: bool): Filter
  {
    Filter(column, OR, values, customField)
  }

  /** `Filter.equals(column, value)`. */
  function EqualsTo(column: string, value: Value, customField: bool): Filter
  {
    Filter(column, EQUALS, [value], customField)
  }

  /** `Filter.after(column, value)`. */
  function After(column: string, value: Value, customField: bool): Filter
  {
    Filter(column, AFTER, [value], customField)
  }

  /** Each constructor sets its own criteria and holds exactly the values it was given. */
  lemma FilterConstructors(column: string, a: Value, b: Value, vs: seq<Value>, cf: bool)
    ensures var f := Between(column, a, b, cf);
      f.column == column && f.criteria.Name() == "BETWEEN" && f.values == [a, b] && f.customField == cf
    ensures var f := AnyMatch(column, vs, cf);
      f.column == column && f.criteria.Name() == "OR" && f.values == vs && f.customField == cf
    ensures var f := EqualsTo(column, a, cf);
      f.column == column && f.criteria.Name() == "EQUALS" && f.values == [a] && f.customField == cf
    ensures var f := After(column, a, cf);
      f.column == column && f.criteria.Name() == "AFTER" && f.values == [a] && f.customField == cf
  {
  }

  /** `serialize` applied to each value in order, with one `custom_field` flag. */
  function SerializeEach(vs: seq<Value>, customField: bool): (rs: seq<Result<string, Error>>)
    ensures |rs| == |vs| && forall i :: 0 <= i < |vs| ==> rs[i] == Serialize(vs[i], customField)
  {
    seq(|vs|, i requires 0 <= i < |vs| => Serialize(vs[i], customField))
  }

  /** Whether `serialize` accepts every value. */
  predicate AllSerializable(vs: seq<Value>)
  {
    forall i :: 0 <= i < |vs| ==> !vs[i].Other?
  }

  /** The texts `serialize` gives values it accepts, in order. */
  function SerializedTexts(vs: seq<Value>, customField: bool): (ts: seq<string>)
    requires AllSerializable(vs)
    ensures |ts| == |vs| && forall i :: 0 <= i < |vs| ==> Serialize(vs[i], customField) == Ok(ts[i])
  {
    seq(|vs|, i requires 0 <= i < |vs| => Serialize(vs[i], customField).value)
  }

  /**
   * `Filter.to_xml()`: a `FilterByCustomInfo` element for a custom field, a
   * `Filter` element otherwise, with `name` and `criteria` attributes and the
   * serialised values comma-joined as text.
   */
  function ToXml(f: Filter): (r: Result<Element, Error>)
    ensures r.Ok? <==> AllSerializable(f.values)
    ensures r.Ok? ==> r.value.tag == (if f.customField then "FilterByCustomInfo" else "Filter")
                      && r.value.attrs == [("name", f.column), ("criteria", f.criteria.Name())]
                      && r.value.children == []
    ensures r.Ok? ==> r.value.text == Some(Join(SerializedTexts(f.values, f.customField), ','))
  {
    match Collect(SerializeEach(f.values, f.customField))
    case Err(e) => Err(e)
    case Ok(texts) =>
      assert texts == SerializedTexts(f.values, f.customField);
      Ok(Element(if f.customField then "FilterByCustomInfo" else "Filter",
                 [("name", f.column), ("criteria", f.criteria.Name())],
                 Some(Join(texts, ',')), []))
  }

  /**
   * The filter's text holds its values serialised with the filter's own
   * `custom_field` flag, in order, joined by a bare comma: splitting the text
   * at commas gives them back when none of them contains a comma.
   */
  lemma FilterText(f: Filter)
    requires AllSerializable(f.values) && |f.values| >= 1
    requires forall i :: 0 <= i < |f.values| ==> ',' !in Serialize(f.values[i], f.customField).value
    ensures var parts := Split(ToXml(f).value.text.value, ',');
      && |parts| == |f.values|
      && forall i :: 0 <= i < |parts| ==> Serialize(f.values[i], f.customField) == Ok(parts[i])
  {
    var rs := SerializeEach(f.values, f.customField);
    var texts := Collect(rs).value;
    assert forall i :: 0 <= i < |texts| ==> rs[i] == Ok(texts[i]);
    SplitJoin(texts, ',');
  }

  /** The query classes; a content pack groups by class and the request tags each query with its class name. */
  datatype QueryKind = GenericQuery | Query | LookupQuery {
    function ClassName(): string {
      match this
      case GenericQuery => "QueryType"
      case Query => "Query"
      case LookupQuery => "LookupQuery"
    }
  }

  /** `QueryType(queries)` and its subclasses `Query` and `LookupQuery`. */
  datatype QueryType = QueryType(kind: QueryKind, filters: seq<Filter>)

  function Strs(codes: seq<string>): (vs: seq<Value>)
    ensures |vs| == |codes| && forall i :: 0 <= i < |vs| ==> vs[i] == Str(codes[i])
  {
    seq(|codes|, i requires 0 <= i < |codes| => Str(codes[i]))
  }

  /** `LookupQuery.any(codes)`: one OR filter on column `code`. */
  function LookupQueryAny(codes: seq<string>): QueryType
  {
    QueryType(LookupQuery, [AnyMatch("code", Strs(codes), false)])
  }

  /** The element of one query: tagged with its class name, holding its filters' elements in order. */
  function QueryXml(q: QueryType): (r: Result<Element, Error>)
    ensures r.Ok? ==> r.value.tag == q.kind.ClassName() && |r.value.children| == |q.filters|
    ensures r.Ok? ==> r.value.attrs == [] && r.value.text == None
  {
    match Collect(FilterResults(q.filters))
    case Err(e) => Err(e)
    case Ok(els) => Ok(Element(q.kind.ClassName(), [], None, els))
  }

  function FilterResults(fs: seq<Filter>): (rs: seq<Result<Element, Error>>)
    ensures |rs| == |fs| && forall i :: 0 <= i < |fs| ==> rs[i] == ToXml(fs[i])
  {
    seq(|fs|, i requires 0 <= i < |fs| => ToXml(fs[i]))
  }

  /**
   * `LookupQuery.any(codes)` rendered as a request query is the very element
   * that `make_content_package_query(node, "LookupQuery", codes)` appends.
   */
  lemma LookupQueryAnyMatchesPackageQuery(codes: seq<string>)
    ensures QueryXml(LookupQueryAny(codes)) == Ok(PackageQuery("LookupQuery", Many(codes), DefaultFilterBy))
  {
    var f := AnyMatch("code", Strs(codes), false);
    var el := Element("Filter", [("name", "code"), ("criteria", "OR")], Some(Join(codes, ',')), []);
    assert ToXml(f) == Ok(el) by {
      var rs := SerializeEach(f.values, false);
      assert forall i :: 0 <= i < |codes| ==> rs[i] == Ok(codes[i]);
      CollectAllOk(rs, codes);
    }
    CollectAllOk(FilterResults([f]), [el]);
  }

  datatype ObjectType = otherInvestment | project | contentPack {
    function Name(): string {
      match this
      case otherInvestment => "otherInvestment"
      case project => "project"
      case contentPack => "contentPack"
    }
  }

  datatype Action = read | write {
    function Name(): string {
      match this
      case read => "read"
      case write => "write"
    }
  }

  /** A Python dict of header arguments: its items in insertion order, each key once. */
  type Args = items: seq<(string, Value)> | Distinct(Keys(items)) witness []

  /** `DataBus.Header`. */
  datatype Header = Header(objectType: ObjectType, args: Args, version: string, action: Action)

  /** `DataBus(header, query)`. */
  datatype DataBus = DataBus(header: Header, query: seq<QueryType>)

  /** `DataBus.Header(object_type, args)` with the defaults for the rest. */
  function NewHeader(objectType: ObjectType, args: Args): (h: Header)
    ensures h.version == "8.0" && h.action.Name() == "read"
    ensures h.objectType == objectType && h.args == args
  {
    Header(objectType, args, "8.0", read)
  }

  /** `DataBus(header, query)` with `__post_init__`'s check. */
  function NewDataBus(header: Header, query: seq<QueryType>): (r: Result<DataBus, Error>)
    ensures r.Err? <==> |query| == 0
    ensures r.Err? ==> r.error == EmptyDataBus
    ensures r.Ok? ==> r.value.header == header && r.value.query == query
  {
    if |query| == 0 then Err(EmptyDataBus) else Ok(DataBus(header, query))
  }

  function Keys<V>(items: seq<(string, V)>): (ks: seq<string>)
    ensures |ks| == |items| && forall i :: 0 <= i < |ks| ==> ks[i] == items[i].0
  {
    seq(|items|, i requires 0 <= i < |items| => items[i].0)
  }

  predicate Distinct<T(==)>(s: seq<T>)
  {
    forall i, j :: 0 <= i < j < |s| ==> s[i] != s[j]
  }

  /**
   * `args[key] = value` on an insertion-ordered dict: an existing key keeps
   * its place and takes the new value; a new key goes last.
   */
  function SetArg(items: Args, key: string, value: Value): (r: Args)
    ensures Lookup(r, key) == Some(value)
    ensures forall k :: k != key ==> Lookup(r, k) == Lookup(items, k)
    ensures Keys(r) == if key in Keys(items) then Keys(items) else Keys(items) + [key]
  {
    if key in Keys(items) then
      var i :| 0 <= i < |items| && items[i].0 == key;
      var r := items[i := (key, value)];
      LookupReplaced(items, i, value);
      assert Keys(r) == Keys(items);
      r
    else
      var r := items + [(key, value)];
      LookupAppended(items, key, value);
      assert Keys(r) == Keys(items) + [key];
      r
  }

  lemma {:induction false} LookupReplaced(items: seq<(string, Value)>, i: nat, value: Value)
    requires i < |items| && Distinct(Keys(items))
    ensures Lookup(items[i := (items[i].0, value)], items[i].0) == Some(value)
    ensures forall k :: k != items[i].0 ==> Lookup(items[i := (items[i].0, value)], k) == Lookup(items, k)
  {
    var r := items[i := (items[i].0, value)];
    if i == 0 {
      assert r[1..] == items[1..];
    } else {
      assert Keys(items[1..]) == Keys(items)[1..];
      LookupReplaced(items[1..], i - 1, value);
      assert r[1..] == items[1..][i - 1 := (items[i].0, value)];
      assert items[0].0 != items[i].0 by { assert Keys(items)[0] != Keys(items)[i]; }
    }
  }

  lemma {:induction false} LookupAppended(items: seq<(string, Value)>, key: string, value: Value)
    requires key !in Keys(items)
    ensures Lookup(items + [(key, value)], key) == Some(value)
    ensures forall k :: k != key ==> Lookup(items + [(key, value)], k) == Lookup(items, k)
  {
    if items != [] {
      assert (items + [(key, value)])[1..] == items[1..] + [(key, value)];
      assert key !in Keys(items[1..]) by {
        assert forall j :: 0 <= j < |items| - 1 ==> Keys(items[1..])[j] == Keys(items)[j + 1];
      }
      LookupAppended(items[1..], key, value);
    }
  }

  /** One `args` child of the request Header. */
  function ArgXml(arg: (string, Value)): (r: Result<Element, Error>)
    ensures r.Ok? <==> !arg.1.Other?
  {
    match Serialize(arg.1, false)
    case Err(e) => Err(e)
    case Ok(t) => Ok(Element("args", [("name", arg.0), ("value", t)], None, []))
  }

  function ArgResults(args: seq<(string, Value)>): (rs: seq<Result<Element, Error>>)
    ensures |rs| == |args| && forall i :: 0 <= i < |args| ==> rs[i] == ArgXml(args[i])
  {
    seq(|args|, i requires 0 <= i < |args| => ArgXml(args[i]))
  }

  function QueryResults(qs: seq<QueryType>): (rs: seq<Result<Element, Error>>)
    ensures |rs| == |qs| && forall i :: 0 <= i < |qs| ==> rs[i] == QueryXml(qs[i])
  {
    seq(|qs|, i requires 0 <= i < |qs| => QueryXml(qs[i]))
  }

  /** The Header element before its `args` children are added. */
  function HeaderShell(h: Header): Element
  {
    Element("Header",
            [("version", h.version), ("action", h.action.Name()),
             ("objectType", h.objectType.Name()), ("externalSource", "NIKU")],
            None, [])
  }

  /** The request Header with its `args` children, or the error of the first argument `serialize` refuses. */
  function HeaderXml(h: Header): (r: Result<Element, Error>)
    ensures r.Ok? <==> forall i :: 0 <= i < |h.args| ==> !h.args[i].1.Other?
  {
    match Collect(ArgResults(h.args))
    case Err(e) => Err(e)
    case Ok(argEls) => Ok(HeaderShell(h).(children := argEls))
  }

  /** The request document `DataBus.as_xml()` builds, or the error it raises first. */
  function DataBusXml(d: DataBus): Result<Element, Error>
  {
    match HeaderXml(d.header)
    case Err(e) => Err(e)
    case Ok(headerEl) =>
      match Collect(QueryResults(d.query))
      case Err(e) => Err(e)
      case Ok(queryEls) => Ok(Element("NikuDataBus", [], None, [headerEl] + queryEls))
  }

  /** Whether every value the request carries, in header args and in filters, can be serialised. */
  predicate Renderable(d: DataBus)
  {
    && (forall i :: 0 <= i < |d.header.args| ==> !d.header.args[i].1.Other?)
    && (forall j, k :: 0 <= j < |d.query| && 0 <= k < |d.query[j].filters| ==>
          AllSerializable(d.query[j].filters[k].values))
  }

  /**
   * The Header carries version, action, objectType and externalSource="NIKU"
   * in that order, then one `args` child per argument in insertion order,
   * its value serialised without `custom_field`.
   */
  lemma HeaderXmlShape(h: Header)
    requires HeaderXml(h).Ok?
    ensures var x := HeaderXml(h).value;
      && x.tag == "Header"
      && x.attrs == [("version", h.version), ("action", h.action.Name()),
                     ("objectType", h.objectType.Name()), ("externalSource", "NIKU")]
      && |x.children| == |h.args|
      && forall i :: 0 <= i < |h.args| ==>
           x.children[i] == Element("args", [("name", h.args[i].0),
                                             ("value", Serialize(h.args[i].1, false).value)], None, [])
  {
    var ar := ArgResults(h.args);
    var argEls := Collect(ar).value;
    forall i | 0 <= i < |h.args|
      ensures argEls[i] == Element("args", [("name", h.args[i].0),
                                            ("value", Serialize(h.args[i].1, false).value)], None, [])
    {
      assert ar[i] == Ok(argEls[i]);
    }
  }

  /** A query's element holds exactly its filters' elements, in order; it fails exactly when one of them does. */
  lemma QueryXmlShape(q: QueryType)
    ensures QueryXml(q).Ok? <==> forall k :: 0 <= k < |q.filters| ==> AllSerializable(q.filters[k].values)
    ensures QueryXml(q).Ok? ==>
      forall k :: 0 <= k < |q.filters| ==> QueryXml(q).value.children[k] == ToXml(q.filters[k]).value
  {
    var fr := FilterResults(q.filters);
    if QueryXml(q).Ok? {
      var fels := Collect(fr).value;
      assert forall k :: 0 <= k < |q.filters| ==> fr[k] == Ok(fels[k]);
    }
  }

  /**
   * The request document: `NikuDataBus` with the Header first and then one
   * element per query, tagged with its class name and holding its filters in
   * order. It fails exactly when some value cannot be serialised.
   */
  lemma DataBusXmlShape(d: DataBus)
    ensures DataBusXml(d).Ok? <==> Renderable(d)
    ensures DataBusXml(d).Ok? ==> var x := DataBusXml(d).value;
      && x.tag == "NikuDataBus" && x.attrs == [] && x.text == None && |x.children| == 1 + |d.query|
      && x.children[0] == HeaderXml(d.header).value
      && (forall j :: 0 <= j < |d.query| ==> x.children[1 + j] == QueryXml(d.query[j]).value)
  {
    var qr := QueryResults(d.query);
    forall j | 0 <= j < |d.query|
      ensures qr[j].Ok? <==> forall k :: 0 <= k < |d.query[j].filters| ==> AllSerializable(d.query[j].filters[k].values)
    {
      QueryXmlShape(d.query[j]);
    }
    if DataBusXml(d).Ok? {
      var queryEls := Collect(qr).value;
      assert forall j :: 0 <= j < |d.query| ==> qr[j] == Ok(queryEls[j]);
    }
  }

  /** `as_xml`'s first loop: one `args` child per header argument, stopping at the first value `serialize` refuses. */
  method HeaderAsXml(h: Header) returns (r: Result<Element, Error>)
    ensures r == HeaderXml(h)
  {
    var header := HeaderShell(h);
    ghost var ar := ArgResults(h.args);
    var i := 0;
    while i < |h.args|
      invariant 0 <= i <= |h.args|
      invariant header == HeaderShell(h).(children := header.children)
      invariant Collect(ar[..i]) == Ok(header.children)
    {
      var (name, value) := h.args[i];
      var text := Serialize(value, false);
      if text.Err? {
        CollectFirstErr(ar, i);
        return Err(text.error);
      }
      CollectExtend(ar, i, header.children);
      header := AppendChild(header, Element("args", [("name", name), ("value", text.value)], None, []));
      i := i + 1;
    }
    assert ar[..i] == ar;
    r := Ok(header);
  }

  /** `as_xml`'s inner loop: one query element filled with its filters, stopping at the first failing filter. */
  method QueryAsXml(query: QueryType) returns (r: Result<Element, Error>)
    ensures r == QueryXml(query)
  {
    var queryEl := Bare(query.kind.ClassName());
    ghost var fr := FilterResults(query.filters);
    var k := 0;
    while k < |query.filters|
      invariant 0 <= k <= |query.filters|
      invariant queryEl == Bare(query.kind.ClassName()).(children := queryEl.children)
      invariant Collect(fr[..k]) == Ok(queryEl.children)
    {
      var el := ToXml(query.filters[k]);
      if el.Err? {
        CollectFirstErr(fr, k);
        return Err(el.error);
      }
      CollectExtend(fr, k, queryEl.children);
      queryEl := AppendChild(queryEl, el.value);
      k := k + 1;
    }
    assert fr[..k] == fr;
    r := Ok(queryEl);
  }

  /**
   * `DataBus.as_xml()`: builds the Header, appends one `args` element per
   * header argument, then appends each query's element after filling it with
   * its filters, stopping at the first value `serialize` refuses.
   */
  method AsXml(d: DataBus) returns (r: Result<Element, Error>)
    ensures r == DataBusXml(d)
  {
    var header := HeaderAsXml(d.header);
    if header.Err? {
      return Err(header.error);
    }
    r := AppendQueries(Element("NikuDataBus", [], None, [header.value]), d.query);
  }

  /** `as_xml`'s outer loop: each query's element, filled with its filters, appended to `databus`, stopping at the first failure. */
  method AppendQueries(databus: Element, qs: seq<QueryType>) returns (r: Result<Element, Error>)
    ensures r == match Collect(QueryResults(qs))
                 case Ok(els) => Ok(databus.(children := databus.children + els))
                 case Err(e) => Err(e)
  {
    var el := databus;
    ghost var qr := QueryResults(qs);
    ghost var els: seq<Element> := [];
    var j := 0;
    while j < |qs|
      invariant 0 <= j <= |qs|
      invariant el == databus.(children := databus.children + els)
      invariant Collect(qr[..j]) == Ok(els)
    {
      var queryEl := QueryAsXml(qs[j]);
      if queryEl.Err? {
        CollectFirstErr(qr, j);
        return Err(queryEl.error);
      }
      CollectExtend(qr, j, els);
      el := AppendChild(el, queryEl.value);
      assert el.children == databus.children + (els + [queryEl.value]);
      els := els + [queryEl.value];
      j := j + 1;
    }
    assert qr[..j] == qr;
    r := Ok(el);
  }

  /** The distinct query classes of `qs`, in order of first appearance. */
  function KindsInOrder(qs: seq<QueryType>): (ks: seq<QueryKind>)
    ensures Distinct(ks)
  {
    if qs == [] then []
    else
      var ks := KindsInOrder(qs[..|qs| - 1]);
      var k := qs[|qs| - 1].kind;
      if k in ks then ks else ks + [k]
  }

  /** A class is listed exactly when some query has it. */
  lemma {:induction false} KindsInOrderMembers(qs: seq<QueryType>)
    ensures forall k :: k in KindsInOrder(qs) <==> exists i :: 0 <= i < |qs| && qs[i].kind == k
  {
    if qs != [] {
      var init := qs[..|qs| - 1];
      KindsInOrderMembers(init);
      assert forall i :: 0 <= i < |init| ==> init[i] == qs[i];
    }
  }

  /** The filters of every query of class `k`, concatenated in the order the queries come. */
  function FiltersOfKind(qs: seq<QueryType>, k: QueryKind): seq<Filter>
  {
    if qs == [] then []
    else FiltersOfKind(qs[..|qs| - 1], k) + (if qs[|qs| - 1].kind == k then qs[|qs| - 1].filters else [])
  }

  /**
   * A `ContentPack`: its `queries` dict maps each query class to the list of
   * filters collected for it; `kinds` is the dict's key order.
   */
  datatype ContentPack = ContentPack(kinds: seq<QueryKind>, groups: map<QueryKind, seq<Filter>>)

  predicate PackValid(pack: ContentPack)
  {
    Distinct(pack.kinds) && forall k :: k in pack.groups <==> k in pack.kinds
  }

  /** What `ContentPack(*queries)` holds: the filters grouped by query class. */
  function GroupQueries(qs: seq<QueryType>): (pack: ContentPack)
    ensures PackValid(pack)
  {
    var ks := KindsInOrder(qs);
    ContentPack(ks, map k | k in ks :: FiltersOfKind(qs, k))
  }

  /**
   * `ContentPack.__init__`: for each query in turn, the list of its class
   * (created empty on first sight, as a `defaultdict(list)` does) is extended
   * with the query's filters.
   */
  method NewContentPack(queries: seq<QueryType>) returns (pack: ContentPack)
    ensures pack == GroupQueries(queries)
  {
    var kinds: seq<QueryKind> := [];
    var groups: map<QueryKind, seq<Filter>> := map[];
    for i := 0 to |queries|
      invariant ContentPack(kinds, groups) == GroupQueries(queries[..i])
    {
      var q := queries[i];
      assert queries[..i + 1] == queries[..i] + [q];
      GroupQueriesStep(queries[..i], q);
      // a missing key reads as a fresh empty list, as with `defaultdict(list)`
      var current := [];
      if q.kind in groups {
        current := groups[q.kind];
      } else {
        kinds := kinds + [q.kind];
      }
      groups := groups[q.kind := current + q.filters];
    }
    assert queries[..|queries|] == queries;
    pack := ContentPack(kinds, groups);
  }

  /** Adding one query to a pack: its class's list grows by its filters, a new class goes last. */
  lemma GroupQueriesStep(qs: seq<QueryType>, q: QueryType)
    ensures var p := GroupQueries(qs);
      GroupQueries(qs + [q])
        == if q.kind in p.groups
           then ContentPack(p.kinds, p.groups[q.kind := p.groups[q.kind] + q.filters])
           else ContentPack(p.kinds + [q.kind], p.groups[q.kind := q.filters])
  {
    KindsInOrderAppend(qs, q);
    if q.kind in KindsInOrder(qs) {
      GroupsOfKnownKind(qs, q);
    } else {
      GroupsOfNewKind(qs, q);
    }
  }

  /** One more query adds its filters to the list of its class and leaves the other lists alone. */
  lemma FiltersOfKindAppend(qs: seq<QueryType>, q: QueryType, k: QueryKind)
    ensures FiltersOfKind(qs + [q], k) == FiltersOfKind(qs, k) + (if q.kind == k then q.filters else [])
  {
    assert (qs + [q])[..|qs|] == qs;
  }

  /** One more query lists its class at the end unless it is listed already. */
  lemma KindsInOrderAppend(qs: seq<QueryType>, q: QueryType)
    ensures KindsInOrder(qs + [q]) == if q.kind in KindsInOrder(qs) then KindsInOrder(qs) else KindsInOrder(qs) + [q.kind]
  {
    assert (qs + [q])[..|qs|] == qs;
  }

  lemma GroupsOfKnownKind(qs: seq<QueryType>, q: QueryType)
    requires q.kind in KindsInOrder(qs)
    ensures var g := GroupQueries(qs).groups;
      GroupQueries(qs + [q]).groups == g[q.kind := g[q.kind] + q.filters]
  {
    var g := GroupQueries(qs).groups;
    var g' := GroupQueries(qs + [q]).groups;
    KindsInOrderAppend(qs, q);
    forall k | k in g' ensures g'[k] == g[q.kind := g[q.kind] + q.filters][k] {
      FiltersOfKindAppend(qs, q, k);
    }
  }

  lemma GroupsOfNewKind(qs: seq<QueryType>, q: QueryType)
    requires q.kind !in KindsInOrder(qs)
    ensures GroupQueries(qs + [q]).groups == GroupQueries(qs).groups[q.kind := q.filters]
  {
    var g := GroupQueries(qs).groups;
    var g' := GroupQueries(qs + [q]).groups;
    var want := g[q.kind := q.filters];
    KindsInOrderAppend(qs, q);
    assert KindsInOrder(qs + [q]) == KindsInOrder(qs) + [q.kind];
    FiltersOfAbsentKind(qs, q.kind);
    assert g'.Keys == want.Keys;
    forall k | k in g' ensures g'[k] == want[k] {
      FiltersOfKindAppend(qs, q, k);
    }
  }

  lemma {:induction false} FiltersOfAbsentKind(qs: seq<QueryType>, k: QueryKind)
    requires k !in KindsInOrder(qs)
    ensures FiltersOfKind(qs, k) == []
  {
    if qs != [] {
      assert k !in KindsInOrder(qs[..|qs| - 1]);
      FiltersOfAbsentKind(qs[..|qs| - 1], k);
    }
  }

  /** The position of the first query of class `k`; `|qs|` when there is none. */
  function FirstOfKind(qs: seq<QueryType>, k: QueryKind): (i: nat)
    ensures i <= |qs| && (i < |qs| ==> qs[i].kind == k) && forall j :: 0 <= j < i ==> qs[j].kind != k
  {
    if qs == [] then 0
    else if qs[0].kind == k then 0
    else 1 + FirstOfKind(qs[1..], k)
  }

  /** The pack's classes come in the order of their first query. */
  lemma {:induction false} KindsFollowFirstOccurrence(qs: seq<QueryType>, a: nat, b: nat)
    requires a < b < |KindsInOrder(qs)|
    ensures FirstOfKind(qs, KindsInOrder(qs)[a]) < FirstOfKind(qs, KindsInOrder(qs)[b])
  {
    var init := qs[..|qs| - 1];
    var ks := KindsInOrder(init);
    var all := KindsInOrder(qs);
    assert forall i :: 0 <= i < |init| ==> init[i] == qs[i];
    assert all[a] == ks[a];
    KindsInOrderMembers(qs);
    KindsInOrderMembers(init);
    FirstOfKindInPrefix(qs, all[a]);
    if b < |ks| {
      assert all[a] == ks[a] && all[b] == ks[b];
      FirstOfKindInPrefix(qs, all[b]);
      KindsFollowFirstOccurrence(init, a, b);
    } else {
      assert all[b] == qs[|qs| - 1].kind && all[b] !in ks;
      assert forall j :: 0 <= j < |init| ==> qs[j].kind != all[b];
    }
  }

  lemma FirstOfKindInPrefix(qs: seq<QueryType>, k: QueryKind)
    requires |qs| >= 1 && k in KindsInOrder(qs[..|qs| - 1])
    ensures FirstOfKind(qs, k) == FirstOfKind(qs[..|qs| - 1], k)
  {
    var init := qs[..|qs| - 1];
    KindsInOrderMembers(init);
    assert forall j :: 0 <= j < |init| ==> init[j] == qs[j];
    var i := FirstOfKind(init, k);
    assert qs[i] == init[i];
    assert forall j :: 0 <= j < i ==> qs[j] == init[j];
    var w := FirstOfKind(qs, k);
    assert forall j :: 0 <= j < i ==> qs[j].kind != k;
  }

  /** All filters of `qs`, query after query. */
  function AllFilters(qs: seq<QueryType>): seq<Filter>
  {
    if qs == [] then [] else AllFilters(qs[..|qs| - 1]) + qs[|qs| - 1].filters
  }

  function Concat(gs: seq<seq<Filter>>): seq<Filter>
  {
    if gs == [] then [] else gs[0] + Concat(gs[1..])
  }

  /** The pack's filters, group after group in the pack's key order. */
  function GroupedFilters(pack: ContentPack): seq<Filter>
    requires PackValid(pack)
  {
    Concat(Groups(pack))
  }

  /** The pack's filter lists, in the pack's key order. */
  function Groups(pack: ContentPack): (gs: seq<seq<Filter>>)
    requires PackValid(pack)
    ensures |gs| == |pack.kinds| && forall i :: 0 <= i < |gs| ==> gs[i] == pack.groups[pack.kinds[i]]
  {
    seq(|pack.kinds|, i requires 0 <= i < |pack.kinds| => pack.groups[pack.kinds[i]])
  }

  lemma {:induction false} ConcatAppend(gs: seq<seq<Filter>>, x: seq<Filter>)
    ensures Concat(gs + [x]) == Concat(gs) + x
  {
    if gs != [] {
      assert (gs + [x])[1..] == gs[1..] + [x];
      ConcatAppend(gs[1..], x);
    }
  }

  lemma {:induction false} ConcatExtendOne(gs: seq<seq<Filter>>, p: nat, x: seq<Filter>)
    requires p < |gs|
    ensures multiset(Concat(gs[p := gs[p] + x])) == multiset(Concat(gs)) + multiset(x)
  {
    if p > 0 {
      assert gs[p := gs[p] + x][1..] == gs[1..][p - 1 := gs[p] + x];
      ConcatExtendOne(gs[1..], p - 1, x);
    } else {
      assert gs[p := gs[p] + x][1..] == gs[1..];
    }
  }

  lemma GroupsOfExtended(pack: ContentPack, p: nat, x: seq<Filter>)
    requires PackValid(pack) && p < |pack.kinds|
    ensures var k := pack.kinds[p];
      var pack' := ContentPack(pack.kinds, pack.groups[k := pack.groups[k] + x]);
      PackValid(pack') && Groups(pack') == Groups(pack)[p := Groups(pack)[p] + x]
  {
  }

  lemma GroupsOfAppended(pack: ContentPack, k: QueryKind, x: seq<Filter>)
    requires PackValid(pack) && k !in pack.groups
    ensures var pack' := ContentPack(pack.kinds + [k], pack.groups[k := x]);
      PackValid(pack') && Groups(pack') == Groups(pack) + [x]
  {
    var pack' := ContentPack(pack.kinds + [k], pack.groups[k := x]);
    assert PackValid(pack');
    assert forall i :: 0 <= i < |pack.kinds| ==> pack'.kinds[i] == pack.kinds[i] != k;
  }

  /** Grouping loses no filter and duplicates none: the pack holds exactly the filters of its queries. */
  lemma {:induction false} GroupingKeepsFilters(qs: seq<QueryType>)
    ensures multiset(GroupedFilters(GroupQueries(qs))) == multiset(AllFilters(qs))
  {
    if qs != [] {
      var init := qs[..|qs| - 1];
      var q := qs[|qs| - 1];
      assert qs == init + [q];
      GroupingKeepsFilters(init);
      GroupQueriesStep(init, q);
      var before := GroupQueries(init);
      var gs := Groups(before);
      if q.kind in before.groups {
        var p :| 0 <= p < |before.kinds| && before.kinds[p] == q.kind;
        GroupsOfExtended(before, p, q.filters);
        ConcatExtendOne(gs, p, q.filters);
      } else {
        GroupsOfAppended(before, q.kind, q.filters);
        ConcatAppend(gs, q.filters);
      }
    }
  }

  /**
   * `ContentPack.to_databus()`: refused when the pack holds no query class;
   * otherwise a `contentPack` request with one query per class, in key order.
   */
  function ToDataBus(pack: ContentPack): (r: Result<DataBus, Error>)
    requires PackValid(pack)
    ensures r.Err? <==> |pack.kinds| == 0
    ensures r.Err? ==> r.error == EmptyContentPack
    ensures r.Ok? ==> r.value.header == NewHeader(contentPack, [])
                      && |r.value.query| == |pack.kinds|
                      && forall i :: 0 <= i < |pack.kinds| ==>
                           r.value.query[i] == QueryType(pack.kinds[i], pack.groups[pack.kinds[i]])
  {
    if |pack.kinds| == 0 then Err(EmptyContentPack)
    else
      var query := seq(|pack.kinds|, i requires 0 <= i < |pack.kinds| =>
                         QueryType(pack.kinds[i], pack.groups[pack.kinds[i]]));
      NewDataBus(NewHeader(contentPack, []), query)
  }

  /**
   * A pack built from `qs` converts to a request exactly when `qs` is not
   * empty (a query without filters still opens its class); the request has
   * one query per distinct class, each holding that class's filters in order.
   */
  lemma PackToDataBus(qs: seq<QueryType>)
    ensures ToDataBus(GroupQueries(qs)).Err? <==> qs == []
    ensures ToDataBus(GroupQueries(qs)).Ok? ==> var d := ToDataBus(GroupQueries(qs)).value;
      && d.header.objectType.Name() == "contentPack" && d.header.args == []
      && |d.query| == |KindsInOrder(qs)|
      && forall i :: 0 <= i < |d.query| ==>
           d.query[i].kind == KindsInOrder(qs)[i] && d.query[i].filters == FiltersOfKind(qs, d.query[i].kind)
  {
    if qs != [] {
      KindsInOrderMembers(qs);
      assert qs[0].kind in KindsInOrder(qs);
    }
  }

  /** The keyword arguments of `Project(...)` after the filters. */
  datatype ProjectOptions = ProjectOptions(
    orderBy1: string, orderBy2: string,
    includeTasks: bool, includeDependencies: bool, includeSubprojects: bool, includeResources: bool,
    includeBaselines: bool, includeAllocations: bool, includeEstimates: bool, includeActuals: bool,
    includeCustom: bool, includeBurdening: bool)

  const DefaultProjectOptions: ProjectOptions :=
    ProjectOptions("name", "projectID", false, false, false, false, false, false, false, false, false, false)

  const ProjectArgNames: seq<string> := [
    "order_by_1", "order_by_2", "include_tasks", "include_dependencies", "include_subprojects",
    "include_resources", "include_baselines", "include_allocations", "include_estimates",
    "include_actuals", "include_custom", "include_burdening"]

  /** The two orderings followed by each of `names` with its flag, as a request's arguments. */
  function OptionArgs(orderBy1: string, orderBy2: string, names: seq<string>, flags: seq<bool>): (args: Args)
    requires |names| == |flags| && Distinct(["order_by_1", "order_by_2"] + names)
    ensures Keys(args) == ["order_by_1", "order_by_2"] + names
    ensures args[0] == ("order_by_1", Str(orderBy1)) && args[1] == ("order_by_2", Str(orderBy2))
    ensures forall i :: 2 <= i < |args| ==> args[i] == (names[i - 2], Bool(flags[i - 2]))
  {
    var items := [("order_by_1", Str(orderBy1)), ("order_by_2", Str(orderBy2))]
      + seq(|names|, i requires 0 <= i < |names| => (names[i], Bool(flags[i])));
    assert Keys(items) == ["order_by_1", "order_by_2"] + names;
    items
  }

  /**
   * The ten `include_*` flags of `Project`, in the order of their names in
   * `ProjectArgNames` (tasks, dependencies, subprojects, resources,
   * baselines, allocations, estimates, actuals, custom, burdening).
   */
  function ProjectFlags(o: ProjectOptions): (flags: seq<bool>)
    ensures |flags| == |ProjectArgNames| - 2
  {
    [o.includeTasks, o.includeDependencies, o.includeSubprojects, o.includeResources, o.includeBaselines,
     o.includeAllocations, o.includeEstimates, o.includeActuals, o.includeCustom, o.includeBurdening]
  }

  /** `Project(*filters, ...)`: a project read request with its twelve fixed arguments and one `Query`. */
  function Project(filters: seq<Filter>, o: ProjectOptions): (d: DataBus)
    ensures d.header.objectType.Name() == "project" && d.header.version == "8.0" && d.header.action.Name() == "read"
    ensures Keys(d.header.args) == ProjectArgNames
    ensures d.header.args[0].1 == Str(o.orderBy1) && d.header.args[1].1 == Str(o.orderBy2)
    ensures forall i :: 2 <= i < |d.header.args| ==> d.header.args[i].1 == Bool(ProjectFlags(o)[i - 2])
    ensures d.query == [QueryType(Query, filters)]
    ensures NewDataBus(d.header, d.query) == Ok(d)
  {
    var args := OptionArgs(o.orderBy1, o.orderBy2, ProjectArgNames[2..], ProjectFlags(o));
    assert Keys(args) == ProjectArgNames;
    DataBus(NewHeader(project, args), [QueryType(Query, filters)])
  }

  /** The keyword arguments of `Other(filters, ...)`. */
  datatype OtherOptions = OtherOptions(
    orderBy1: string, orderBy2: string, includeResources: bool, includeTasks: bool, includeAllocations: bool)

  const DefaultOtherOptions: OtherOptions := OtherOptions("name", "objectID", false, false, false)

  const OtherArgNames: seq<string> := [
    "order_by_1", "order_by_2", "include_resources", "include_tasks", "include_allocations"]

  /** `Project(*filters)` with every keyword left out: ordered by name and then project id, nothing included. */
  lemma ProjectDefaults(filters: seq<Filter>)
    ensures var args := Project(filters, DefaultProjectOptions).header.args;
      && args[0] == ("order_by_1", Str("name")) && args[1] == ("order_by_2", Str("projectID"))
      && forall i :: 2 <= i < |args| ==> args[i].1 == Bool(false)
  {
  }

  /** The three `include_*` flags of `Other`, in the order of their names in `OtherArgNames`. */
  function OtherFlags(o: OtherOptions): (flags: seq<bool>)
    ensures |flags| == |OtherArgNames| - 2
  {
    [o.includeResources, o.includeTasks, o.includeAllocations]
  }

  /** The arguments `Other` sends: each name of `OtherArgNames` with the option of that name. */
  function OtherArgs(o: OtherOptions): (args: Args)
    ensures Keys(args) == OtherArgNames
    ensures args[0].1 == Str(o.orderBy1) && args[1].1 == Str(o.orderBy2)
    ensures forall i :: 2 <= i < |args| ==> args[i].1 == Bool(OtherFlags(o)[i - 2])
  {
    var args := OptionArgs(o.orderBy1, o.orderBy2, OtherArgNames[2..], OtherFlags(o));
    assert Keys(args) == OtherArgNames;
    args
  }

  /**
   * `Other(filters, ...)` as written: the five investment arguments and one
   * `Query`, but with object type `project`.
   */
  function Other(filters: seq<Filter>, o: OtherOptions): (d: DataBus)
    ensures d.header.version == "8.0" && d.header.action.Name() == "read"
    ensures Keys(d.header.args) == OtherArgNames
    ensures d.header.args[0].1 == Str(o.orderBy1) && d.header.args[1].1 == Str(o.orderBy2)
    ensures forall i :: 2 <= i < |d.header.args| ==> d.header.args[i].1 == Bool(OtherFlags(o)[i - 2])
    ensures d.query == [QueryType(Query, filters)]
    ensures NewDataBus(d.header, d.query) == Ok(d)
  {
    DataBus(NewHeader(project, OtherArgs(o)), [QueryType(Query, filters)])
  }

  /** `Other(filters)` with every keyword left out: ordered by name and then object id, nothing included. */
  lemma OtherDefaults(filters: seq<Filter>)
    ensures var args := Other(filters, DefaultOtherOptions).header.args;
      && args[0] == ("order_by_1", Str("name")) && args[1] == ("order_by_2", Str("objectID"))
      && forall i :: 2 <= i < |args| ==> args[i].1 == Bool(false)
  {
  }

  /** `Other` asks for projects, not for other investments, whatever its arguments. */
  lemma OtherRequestsProjects(filters: seq<Filter>, o: OtherOptions)
    ensures Other(filters, o).header.objectType.Name() == "project"
    ensures Other(filters, o).header.objectType != otherInvestment
  {
  }

  /** `Other` with the object type its arguments belong to: an `otherInvestment` read request. */
  function OtherInvestment(filters: seq<Filter>, o: OtherOptions): (d: DataBus)
    ensures d.header.objectType.Name() == "otherInvestment"
    ensures d.header.version == "8.0" && d.header.action.Name() == "read"
    ensures Keys(d.header.args) == OtherArgNames
    ensures d.header.args[0].1 == Str(o.orderBy1) && d.header.args[1].1 == Str(o.orderBy2)
    ensures forall i :: 2 <= i < |d.header.args| ==> d.header.args[i].1 == Bool(OtherFlags(o)[i - 2])
    ensures d.query == [QueryType(Query, filters)]
    ensures NewDataBus(d.header, d.query) == Ok(d)
  {
    DataBus(NewHeader(otherInvestment, OtherArgs(o)), [QueryType(Query, filters)])
  }

  /**
   * The rendered project request lists its twelve arguments in the fixed
   * order, the two orderings as given and each flag as `true` or `false`
   * according to its option.
   */
  lemma ProjectRequestArgs(filters: seq<Filter>, o: ProjectOptions)
    requires forall k :: 0 <= k < |filters| ==> AllSerializable(filters[k].values)
    ensures DataBusXml(Project(filters, o)).Ok?
    ensures var h := DataBusXml(Project(filters, o)).value.children[0];
      && |h.children| == |ProjectArgNames|
      && (forall i :: 0 <= i < |ProjectArgNames| ==> |h.children[i].attrs| == 2 && h.children[i].attrs[0] == ("name", ProjectArgNames[i]))
      && h.children[0].attrs[1] == ("value", o.orderBy1)
      && h.children[1].attrs[1] == ("value", o.orderBy2)
      && forall i :: 2 <= i < |ProjectArgNames| ==>
           h.children[i].attrs[1] == ("value", if ProjectFlags(o)[i - 2] then "true" else "false")
  {
    var d := Project(filters, o);
    DataBusXmlShape(d);
    HeaderXmlShape(d.header);
    forall i | 2 <= i < |ProjectArgNames|
      ensures Serialize(d.header.args[i].1, false) == Ok(if ProjectFlags(o)[i - 2] then "true" else "false")
    {
      SerializeBool(d.header.args[i].1.b, false);
    }
  }
}

=== FILE: pipeline.dfy ===
/**
 * The migrator: reading a request page by page from the source instance
 * (`aiter_paginate`, `_aiter_paginate_stream`) and writing every page read
 * to the destination instance (`migrate`).
 */
module Pipeline {
  import opened Wrappers
  import opened Tree
  import opened Errors
  import opened Wire
  import opened Objects
  import opened Gateway

  /** `databus.header.args["skip"] = skip`: the request with its cursor moved, nothing else changed. */
  function WithSkip(bus: DataBus, skip: int): (r: DataBus)
    ensures r.query == bus.query
  {
    bus.(header := bus.header.(args := SetArg(bus.header.args, "skip", Int(skip))))
  }

  /** Moving the cursor sets `skip` and changes nothing else the request says. */
  lemma WithSkipMovesCursor(bus: DataBus, skip: int)
    ensures var r := WithSkip(bus, skip);
      && r.query == bus.query && r.header.objectType == bus.header.objectType
      && r.header.version == bus.header.version && r.header.action == bus.header.action
      && Lookup(r.header.args, "skip") == Some(Int(skip))
      && forall k :: k != "skip" ==> Lookup(r.header.args, k) == Lookup(bus.header.args, k)
  {
  }

  /** The optional `transform_fn` applied to a reply. */
  function Apply(transform: Option<Element -> Element>, e: Element): Element
  {
    match transform
    case None => e
    case Some(f) => f(e)
  }

  /** One yielded `(page_num, resp)` pair. */
  datatype Page = Page(number: nat, payload: Element)

  /**
   * One answered round: the request as it stood (of any type `B` the run is
   * generic in), its XML, the page yielded and the reply's `Skip` cursor.
   */
  datatype Round<B> = Round(bus: B, request: Element, page: Page, skip: Option<int>)

  /**
   * A whole run: the answered rounds, the request whose POST failed (if
   * any), the error that ended the run (none when a reply had no cursor),
   * and the request as the run leaves it.
   */
  datatype Trace<B> = Trace(rounds: seq<Round<B>>, unanswered: Option<Element>, failure: Option<Error>, last: B)

  /** How one turn of a run ends: with an error, with the last page, or with a page and the cursor to go on from. */
  datatype Step = Halted(error: Error) | Final(page: Page) | Onward(page: Page, skip: int)

  function Prepend<B(==)>(rounds: seq<Round<B>>, t: Trace<B>): Trace<B>
  {
    t.(rounds := rounds + t.rounds)
  }

  function PagesOf<B(==)>(rounds: seq<Round<B>>): (ps: seq<Page>)
    ensures |ps| == |rounds|
  {
    if rounds == [] then [] else PagesOf(rounds[..|rounds| - 1]) + [rounds[|rounds| - 1].page]
  }

  function Payloads<B(==)>(rounds: seq<Round<B>>): (es: seq<Element>)
    ensures |es| == |rounds|
  {
    if rounds == [] then [] else Payloads(rounds[..|rounds| - 1]) + [rounds[|rounds| - 1].page.payload]
  }

  function RequestsOf<B(==)>(rounds: seq<Round<B>>): (es: seq<Element>)
    ensures |es| == |rounds|
  {
    if rounds == [] then [] else RequestsOf(rounds[..|rounds| - 1]) + [rounds[|rounds| - 1].request]
  }

  /** The payloads of `pages`, in page order. */
  function Bodies(pages: seq<Page>): (es: seq<Element>)
    ensures |es| == |pages|
  {
    if pages == [] then [] else Bodies(pages[..|pages| - 1]) + [pages[|pages| - 1].payload]
  }

  /** The `i`-th page of a run is its `i`-th round's page. */
  lemma {:induction false} PagesOfIndex<B>(rounds: seq<Round<B>>)
    ensures forall i :: 0 <= i < |rounds| ==> PagesOf(rounds)[i] == rounds[i].page
  {
    if rounds != [] {
      var init := rounds[..|rounds| - 1];
      PagesOfIndex(init);
      assert forall i :: 0 <= i < |init| ==> init[i] == rounds[i];
    }
  }

  /** The `i`-th payload of a run is its `i`-th page's payload. */
  lemma {:induction false} PayloadsIndex<B>(rounds: seq<Round<B>>)
    ensures forall i :: 0 <= i < |rounds| ==> Payloads(rounds)[i] == rounds[i].page.payload
  {
    if rounds != [] {
      var init := rounds[..|rounds| - 1];
      PayloadsIndex(init);
      assert forall i :: 0 <= i < |init| ==> init[i] == rounds[i];
    }
  }

  /** The `i`-th answered request of a run is its `i`-th round's request. */
  lemma {:induction false} RequestsOfIndex<B>(rounds: seq<Round<B>>)
    ensures forall i :: 0 <= i < |rounds| ==> RequestsOf(rounds)[i] == rounds[i].request
  {
    if rounds != [] {
      var init := rounds[..|rounds| - 1];
      RequestsOfIndex(init);
      assert forall i :: 0 <= i < |init| ==> init[i] == rounds[i];
    }
  }

  /** The payloads of a run's pages are its payloads. */
  lemma {:induction false} BodiesOfPages<B>(rounds: seq<Round<B>>)
    ensures Bodies(PagesOf(rounds)) == Payloads(rounds)
  {
    if rounds != [] {
      var init := rounds[..|rounds| - 1];
      BodiesOfPages(init);
      assert PagesOf(rounds)[..|rounds| - 1] == PagesOf(init);
    }
  }

  /** Every request POSTed to the source, answered or not. */
  function Requests<B(==)>(t: Trace<B>): seq<Element>
  {
    RequestsOf(t.rounds) + (if t.unanswered.Some? then [t.unanswered.value] else [])
  }

  /** How `run_xog` ends for one reply: the payload and its cursor, or an error. */
  type Answer = Result<(Element, Option<int>), Error>

  /** The gateway's replies as `run_xog` reads them, one after another. */
  function Answers(script: seq<Exchange>): (answers: seq<Answer>)
    ensures |answers| == |script|
  {
    if script == [] then [] else [CallOutcome(Some(script[0]))] + Answers(script[1..])
  }

  /** What one POST reads: the first answer, or a connection fault when none is left. */
  function FirstAnswer(answers: seq<Answer>): Answer
  {
    if answers == [] then Err(Unreachable) else answers[0]
  }

  /** A POST that read an answer leaves the answers after it. */
  lemma AnswerConsumed(answers: seq<Answer>, k: nat)
    ensures FirstAnswer(Drop(answers, k)).Ok? ==> Drop(answers, k) != [] && Drop(answers, k)[1..] == Drop(answers, k + 1)
  {
    if k + 1 < |answers| {
      assert answers[k..][1..] == answers[k + 1..];
    }
  }

  /** The replies left after `k` POSTs read as the answers after the first `k`. */
  lemma {:induction false} AnswersDrop(script: seq<Exchange>, k: nat)
    ensures Answers(Drop(script, k)) == Drop(Answers(script), k)
    decreases k
  {
    if k > 0 && k < |script| {
      AnswersDrop(script[1..], k - 1);
      assert script[1..][k - 1..] == script[k..];
      assert Answers(script)[k..] == Answers(script[1..])[k - 1..];
    }
  }

  /** One POST reads the first answer and leaves the others. */
  lemma AnswersStep(script: seq<Exchange>)
    ensures CallOutcome(Head(script)) == FirstAnswer(Answers(script))
    ensures Answers(Rest(script)) == if script == [] then [] else Answers(script)[1..]
  {
  }

  /**
   * `aiter_paginate` over the source's `answers`, numbering pages from `n`:
   * render the request, POST it, yield the (transformed) reply, stop when
   * the reply has no `Skip` cursor, else write the cursor into the request
   * with `advance` and go round again. Rendering and POST errors end the
   * run; a POST with no reply left fails to connect. The run is stated for
   * any request type `B`; the migrator's is `DataBus` with `DataBusXml` and
   * `WithSkip`.
   */
  function PaginateSpec<B(==)>(render: B -> Result<Element, Error>, advance: (B, int) -> B, bus: B,
                               answers: seq<Answer>, transform: Option<Element -> Element>, n: nat): (t: Trace<B>)
    decreases |answers|
  {
    match render(bus)
    case Err(e) => Trace([], None, Some(e), bus)
    case Ok(request) =>
      match FirstAnswer(answers)
      case Err(e) => Trace([], Some(request), Some(e), bus)
      case Ok((resp, skip)) =>
        var round := Round(bus, request, Page(n, Apply(transform, resp)), skip);
        if skip.None? then Trace([round], None, None, bus)
        else Prepend([round], PaginateSpec(render, advance, advance(bus, skip.value), answers[1..], transform, n + 1))
  }

  /** The reply to `bus` carries a cursor, so another round follows. */
  predicate Continues<B>(render: B -> Result<Element, Error>, bus: B, answers: seq<Answer>)
  {
    render(bus).Ok? && FirstAnswer(answers).Ok? && FirstAnswer(answers).value.1.Some?
  }

  /** The round `bus` makes when its POST reads `a`. */
  function RoundOf<B>(bus: B, request: Element, a: Answer, transform: Option<Element -> Element>, n: nat): Round<B>
    requires a.Ok?
  {
    Round(bus, request, Page(n, Apply(transform, a.value.0)), a.value.1)
  }

  /** A run that goes on is its first round followed by the run from the advanced request. */
  lemma PaginateUnfolds<B>(render: B -> Result<Element, Error>, advance: (B, int) -> B, bus: B,
                           answers: seq<Answer>, transform: Option<Element -> Element>, n: nat)
    requires Continues(render, bus, answers)
    ensures answers != []
    ensures PaginateSpec(render, advance, bus, answers, transform, n)
            == Prepend([RoundOf(bus, render(bus).value, answers[0], transform, n)],
                       PaginateSpec(render, advance, advance(bus, answers[0].value.1.value), answers[1..], transform, n + 1))
  {
  }

  /** A run that does not go on: a rendering error, a failed POST, or a last page. */
  lemma PaginateHalts<B>(render: B -> Result<Element, Error>, advance: (B, int) -> B, bus: B,
                         answers: seq<Answer>, transform: Option<Element -> Element>, n: nat)
    requires !Continues(render, bus, answers)
    ensures var t := PaginateSpec(render, advance, bus, answers, transform, n);
      && (render(bus).Err? ==> t == Trace([], None, Some(render(bus).error), bus))
      && (render(bus).Ok? && FirstAnswer(answers).Err? ==>
            t == Trace([], Some(render(bus).value), Some(FirstAnswer(answers).error), bus))
      && (render(bus).Ok? && FirstAnswer(answers).Ok? ==>
            t == Trace([RoundOf(bus, render(bus).value, FirstAnswer(answers), transform, n)], None, None, bus))
  {
  }

  /** A run, part of which is `done`, whose next request does not render ends there with that error. */
  lemma RenderFails<B>(render: B -> Result<Element, Error>, advance: (B, int) -> B, bus: B,
                       answers: seq<Answer>, transform: Option<Element -> Element>, n: nat,
                       done: seq<Round<B>>, whole: Trace<B>)
    requires whole == Prepend(done, PaginateSpec(render, advance, bus, answers, transform, n))
    requires render(bus).Err?
    ensures whole.rounds == done && Requests(whole) == RequestsOf(done)
    ensures whole.failure == Some(render(bus).error) && whole.last == bus
  {
    Summaries(done, PaginateSpec(render, advance, bus, answers, transform, n));
  }

  /** ... whose next POST fails ends there with that error, the request sent. */
  lemma PostFails<B>(render: B -> Result<Element, Error>, advance: (B, int) -> B, bus: B,
                     answers: seq<Answer>, transform: Option<Element -> Element>, n: nat,
                     done: seq<Round<B>>, whole: Trace<B>)
    requires whole == Prepend(done, PaginateSpec(render, advance, bus, answers, transform, n))
    requires render(bus).Ok? && FirstAnswer(answers).Err?
    ensures whole.rounds == done && Requests(whole) == RequestsOf(done) + [render(bus).value]
    ensures whole.failure == Some(FirstAnswer(answers).error) && whole.last == bus
  {
    Summaries(done, PaginateSpec(render, advance, bus, answers, transform, n));
  }

  /** ... whose next reply has no cursor ends with that page. */
  lemma LastPage<B>(render: B -> Result<Element, Error>, advance: (B, int) -> B, bus: B,
                    answers: seq<Answer>, transform: Option<Element -> Element>, n: nat,
                    done: seq<Round<B>>, whole: Trace<B>, request: Element, resp: Element)
    requires whole == Prepend(done, PaginateSpec(render, advance, bus, answers, transform, n))
    requires render(bus) == Ok(request) && FirstAnswer(answers) == Ok((resp, None))
    ensures whole.rounds == done + [Round(bus, request, Page(n, Apply(transform, resp)), None)]
    ensures Requests(whole) == RequestsOf(done) + [request]
    ensures whole.failure.None? && whole.last == bus
  {
    Summaries(done, PaginateSpec(render, advance, bus, answers, transform, n));
  }

  /** ... and whose next reply has a cursor goes on, one round more done, from the advanced request. */
  lemma NextPage<B>(render: B -> Result<Element, Error>, advance: (B, int) -> B, bus: B,
                    answers: seq<Answer>, k: nat, transform: Option<Element -> Element>, n: nat,
                    done: seq<Round<B>>, whole: Trace<B>, request: Element, resp: Element, skip: int)
    requires whole == Prepend(done, PaginateSpec(render, advance, bus, Drop(answers, k), transform, n))
    requires render(bus) == Ok(request) && FirstAnswer(Drop(answers, k)) == Ok((resp, Some(skip)))
    ensures whole == Prepend(done + [Round(bus, request, Page(n, Apply(transform, resp)), Some(skip))],
                             PaginateSpec(render, advance, advance(bus, skip), Drop(answers, k + 1), transform, n + 1))
  {
    AnswerConsumed(answers, k);
    PaginateUnfolds(render, advance, bus, Drop(answers, k), transform, n);
    PrependOne(done, Round(bus, request, Page(n, Apply(transform, resp)), Some(skip)),
               PaginateSpec(render, advance, advance(bus, skip), Drop(answers, k + 1), transform, n + 1));
  }

  /** The pages of `rounds` carry the numbers `n`, `n + 1`, ... in order. */
  predicate NumberedFrom<B(==)>(rounds: seq<Round<B>>, n: nat)
  {
    forall i :: 0 <= i < |rounds| ==> rounds[i].page.number == n + i
  }

  /** Pages are numbered `n`, `n + 1`, ... in the order they are read. */
  lemma {:induction false} PaginateNumbersPages<B>(render: B -> Result<Element, Error>, advance: (B, int) -> B, bus: B,
                                                   answers: seq<Answer>, transform: Option<Element -> Element>, n: nat)
    ensures NumberedFrom(PaginateSpec(render, advance, bus, answers, transform, n).rounds, n)
    decreases |answers|
  {
    var t := PaginateSpec(render, advance, bus, answers, transform, n);
    if Continues(render, bus, answers) {
      var bus' := advance(bus, answers[0].value.1.value);
      var rest := PaginateSpec(render, advance, bus', answers[1..], transform, n + 1);
      PaginateUnfolds(render, advance, bus, answers, transform, n);
      PaginateNumbersPages(render, advance, bus', answers[1..], transform, n + 1);
      forall i | 0 <= i < |t.rounds| ensures t.rounds[i].page.number == n + i {
        if i > 0 {
          assert t.rounds[i] == rest.rounds[i - 1];
        }
      }
    }
  }

  /**
   * The rounds start from `bus`; each sends the rendering of its request;
   * each later round sends the previous request advanced to the previous
   * reply's cursor.
   */
  predicate ChainedFrom<B(==)>(render: B -> Result<Element, Error>, advance: (B, int) -> B, rounds: seq<Round<B>>, bus: B)
  {
    && (|rounds| > 0 ==> rounds[0].bus == bus)
    && (forall i :: 0 <= i < |rounds| ==> render(rounds[i].bus) == Ok(rounds[i].request))
    && (forall i :: 0 <= i < |rounds| - 1 ==>
          rounds[i].skip.Some? && rounds[i + 1].bus == advance(rounds[i].bus, rounds[i].skip.value))
  }

  /** Each request is the previous one with the previous cursor written in. */
  lemma {:induction false} PaginateChainsSkip<B>(render: B -> Result<Element, Error>, advance: (B, int) -> B, bus: B,
                                                 answers: seq<Answer>, transform: Option<Element -> Element>, n: nat)
    ensures ChainedFrom(render, advance, PaginateSpec(render, advance, bus, answers, transform, n).rounds, bus)
    decreases |answers|
  {
    var t := PaginateSpec(render, advance, bus, answers, transform, n);
    if Continues(render, bus, answers) {
      var bus' := advance(bus, answers[0].value.1.value);
      var rest := PaginateSpec(render, advance, bus', answers[1..], transform, n + 1);
      PaginateUnfolds(render, advance, bus, answers, transform, n);
      PaginateChainsSkip(render, advance, bus', answers[1..], transform, n + 1);
      forall i | 1 <= i < |t.rounds| ensures render(t.rounds[i].bus) == Ok(t.rounds[i].request) {
        assert t.rounds[i] == rest.rounds[i - 1];
      }
      forall i | 0 <= i < |t.rounds| - 1
        ensures t.rounds[i].skip.Some? && t.rounds[i + 1].bus == advance(t.rounds[i].bus, t.rounds[i].skip.value)
      {
        assert t.rounds[i + 1] == rest.rounds[i];
        if i > 0 {
          assert t.rounds[i] == rest.rounds[i - 1];
        }
      }
    }
  }

  /**
   * A run ends cleanly exactly when its last reply had no cursor, and then
   * every POST it made was answered.
   */
  predicate EndsAtLastCursor<B(==)>(t: Trace<B>)
  {
    && (t.failure.None? <==> |t.rounds| > 0 && t.rounds[|t.rounds| - 1].skip.None?)
    && (t.failure.None? ==> t.unanswered.None?)
  }

  /**
   * The run stops at the first reply without a cursor; it makes at least one
   * POST once the request renders, and its answered rounds never outnumber
   * the replies available.
   */
  lemma {:induction false} PaginateStops<B>(render: B -> Result<Element, Error>, advance: (B, int) -> B, bus: B,
                                            answers: seq<Answer>, transform: Option<Element -> Element>, n: nat)
    ensures EndsAtLastCursor(PaginateSpec(render, advance, bus, answers, transform, n))
    ensures render(bus).Ok? ==> |Requests(PaginateSpec(render, advance, bus, answers, transform, n))| >= 1
    ensures |PaginateSpec(render, advance, bus, answers, transform, n).rounds| <= |answers|
    decreases |answers|
  {
    var t := PaginateSpec(render, advance, bus, answers, transform, n);
    if Continues(render, bus, answers) {
      var bus' := advance(bus, answers[0].value.1.value);
      var rest := PaginateSpec(render, advance, bus', answers[1..], transform, n + 1);
      PaginateUnfolds(render, advance, bus, answers, transform, n);
      PaginateStops(render, advance, bus', answers[1..], transform, n + 1);
      if |rest.rounds| > 0 {
        assert t.rounds[|t.rounds| - 1] == rest.rounds[|rest.rounds| - 1];
      }
    }
  }

  /** Round `i` is answered by answer `i`: its page is that reply's payload, transformed, and its cursor that reply's `Skip`. */
  predicate AnsweredBy<B(==)>(rounds: seq<Round<B>>, answers: seq<Answer>, transform: Option<Element -> Element>)
  {
    forall i :: 0 <= i < |rounds| ==>
      && i < |answers| && answers[i].Ok?
      && answers[i].value.1 == rounds[i].skip
      && rounds[i].page.payload == Apply(transform, answers[i].value.0)
  }

  /** Each page comes from the reply at its position, through the transform. */
  lemma {:induction false} PaginateUsesReplies<B>(render: B -> Result<Element, Error>, advance: (B, int) -> B, bus: B,
                                                  answers: seq<Answer>, transform: Option<Element -> Element>, n: nat)
    ensures AnsweredBy(PaginateSpec(render, advance, bus, answers, transform, n).rounds, answers, transform)
    decreases |answers|
  {
    var t := PaginateSpec(render, advance, bus, answers, transform, n);
    if Continues(render, bus, answers) {
      var bus' := advance(bus, answers[0].value.1.value);
      var rest := PaginateSpec(render, advance, bus', answers[1..], transform, n + 1);
      PaginateUnfolds(render, advance, bus, answers, transform, n);
      PaginateUsesReplies(render, advance, bus', answers[1..], transform, n + 1);
      assert t.rounds == [RoundOf(bus, render(bus).value, answers[0], transform, n)] + rest.rounds;
      forall i | 0 <= i < |t.rounds|
        ensures i < |answers| && answers[i].Ok? && answers[i].value.1 == t.rounds[i].skip
             && t.rounds[i].page.payload == Apply(transform, answers[i].value.0)
      {
        if i > 0 {
          assert t.rounds[i] == rest.rounds[i - 1] && answers[i] == answers[1..][i - 1];
        }
      }
    }
  }

  /**
   * POSTing `count` pages, in page order, to a destination that answers
   * `accepts`: how many POSTs are made and the error of the first one
   * refused (a POST with no reply left fails to connect). The first refusal
   * cancels the POSTs after it.
   */
  function Delivery(accepts: seq<Answer>, count: nat): (d: (nat, Option<Error>))
    ensures d.0 <= count
    ensures d.1.None? ==> d.0 == count
    ensures d.1.Some? ==> 1 <= d.0
    decreases count
  {
    if count == 0 then (0, None)
    else
      match FirstAnswer(accepts)
      case Err(e) => (1, Some(e))
      case Ok(_) =>
        var (k, e) := Delivery(accepts[1..], count - 1);
        (k + 1, e)
  }

  /** The destination has a success for each of the first `count` POSTs. */
  predicate AcceptsFirst(accepts: seq<Answer>, count: nat)
  {
    count <= |accepts| && forall i :: 0 <= i < count ==> accepts[i].Ok?
  }

  /**
   * Every page goes through exactly when the destination accepts each of
   * them; otherwise the last POST made is the first refused one, and every
   * POST before it was accepted.
   */
  lemma {:induction false} DeliverySucceeds(accepts: seq<Answer>, count: nat)
    ensures Delivery(accepts, count).1.None? <==> AcceptsFirst(accepts, count)
    ensures Delivery(accepts, count).1.Some? ==>
      && AcceptsFirst(accepts, Delivery(accepts, count).0 - 1)
      && FirstAnswer(Drop(accepts, Delivery(accepts, count).0 - 1)) == Err(Delivery(accepts, count).1.value)
    decreases count
  {
    if count == 0 {
      return;
    }
    assert Drop(accepts, 0) == accepts;
    if FirstAnswer(accepts).Err? {
      assert accepts != [] ==> accepts[0].Err?;
      return;
    }
    var rest := accepts[1..];
    DeliverySucceeds(rest, count - 1);
    var (k, e) := Delivery(rest, count - 1);
    assert Delivery(accepts, count) == (k + 1, e);
    AcceptsFirstStep(accepts, count);
    if e.Some? {
      AcceptsFirstStep(accepts, k);
      assert Drop(accepts, k) == Drop(rest, k - 1);
    }
  }

  /** The first `count` answers are successes when the first is and the `count - 1` after it are. */
  lemma AcceptsFirstStep(accepts: seq<Answer>, count: nat)
    requires accepts != [] && 1 <= count
    ensures AcceptsFirst(accepts, count) <==> accepts[0].Ok? && AcceptsFirst(accepts[1..], count - 1)
  {
    assert forall i :: 1 <= i < |accepts| ==> accepts[i] == accepts[1..][i - 1];
  }

  /** After `i` accepted POSTs, a refusal of the next one ends the delivery there. */
  lemma {:induction false} DeliveryRefused(accepts: seq<Answer>, count: nat, i: nat)
    requires i < count && AcceptsFirst(accepts, i) && FirstAnswer(Drop(accepts, i)).Err?
    ensures Delivery(accepts, count) == (i + 1, Some(FirstAnswer(Drop(accepts, i)).error))
    decreases i
  {
    assert Drop(accepts, 0) == accepts;
    if i > 0 {
      AcceptsFirstStep(accepts, i);
      assert Drop(accepts, i) == Drop(accepts[1..], i - 1);
      DeliveryRefused(accepts[1..], count - 1, i - 1);
    }
  }

  /** When the first `count` POSTs are accepted, all `count` are made and none is refused. */
  lemma {:induction false} DeliveryAccepted(accepts: seq<Answer>, count: nat)
    requires AcceptsFirst(accepts, count)
    ensures Delivery(accepts, count) == (count, None)
    decreases count
  {
    if count > 0 {
      AcceptsFirstStep(accepts, count);
      DeliveryAccepted(accepts[1..], count - 1);
    }
  }

  /** An accepted POST extends the accepted prefix. */
  lemma AcceptsOneMore(accepts: seq<Answer>, i: nat)
    requires AcceptsFirst(accepts, i) && FirstAnswer(Drop(accepts, i)).Ok?
    ensures AcceptsFirst(accepts, i + 1)
  {
    assert accepts[i] == Drop(accepts, i)[0];
  }

  /** A whole `migrate` of a request: the source's pagination, how many pages the destination was sent, and what `migrate` returns. */
  datatype Migration<B> = Migration(pagination: Trace<B>, posts: nat, result: Result<seq<Element>, Error>)

  /**
   * `migrate` on a request, in one order its concurrent parts can take: the
   * source is read as `aiter_paginate` reads it; a failed read raises and
   * no page reaches the destination; otherwise the pages are POSTed in page
   * order, the first refusal raises, and without one the pages read are
   * returned.
   */
  function MigrateSpec<B(==)>(render: B -> Result<Element, Error>, advance: (B, int) -> B, bus: B,
                              src: seq<Answer>, dest: seq<Answer>, transform: Option<Element -> Element>): Migration<B>
  {
    var t := PaginateSpec(render, advance, bus, src, transform, 1);
    if t.failure.Some? then Migration(t, 0, Err(t.failure.value))
    else
      var (k, e) := Delivery(dest, |t.rounds|);
      Migration(t, k, if e.Some? then Err(e.value) else Ok(Payloads(t.rounds)))
  }

  /**
   * A migration succeeds exactly when every read succeeds and the
   * destination accepts every page; then it returns every page read, each
   * POSTed once. A failed read reaches the destination with nothing.
   */
  lemma MigrateOutcome<B>(render: B -> Result<Element, Error>, advance: (B, int) -> B, bus: B,
                          src: seq<Answer>, dest: seq<Answer>, transform: Option<Element -> Element>)
    ensures MigrateSpec(render, advance, bus, src, dest, transform).pagination == PaginateSpec(render, advance, bus, src, transform, 1)
    ensures MigrateSpec(render, advance, bus, src, dest, transform).posts
            <= |PaginateSpec(render, advance, bus, src, transform, 1).rounds|
    ensures MigrateSpec(render, advance, bus, src, dest, transform).result.Ok? <==>
      && PaginateSpec(render, advance, bus, src, transform, 1).failure.None?
      && AcceptsFirst(dest, |PaginateSpec(render, advance, bus, src, transform, 1).rounds|)
    ensures MigrateSpec(render, advance, bus, src, dest, transform).result.Ok? ==>
      && MigrateSpec(render, advance, bus, src, dest, transform).result.value
         == Payloads(PaginateSpec(render, advance, bus, src, transform, 1).rounds)
      && MigrateSpec(render, advance, bus, src, dest, transform).posts
         == |PaginateSpec(render, advance, bus, src, transform, 1).rounds|
    ensures PaginateSpec(render, advance, bus, src, transform, 1).failure.Some? ==>
      && MigrateSpec(render, advance, bus, src, dest, transform).result == Err(PaginateSpec(render, advance, bus, src, transform, 1).failure.value)
      && MigrateSpec(render, advance, bus, src, dest, transform).posts == 0
  {
    DeliverySucceeds(dest, |PaginateSpec(render, advance, bus, src, transform, 1).rounds|);
  }

  /** What `migrate` accepts: a content pack (valid as its constructor leaves it), a request, or anything else. */
  datatype Content = Pack(pack: ContentPack) | Bus(bus: DataBus) | Unsupported(typeName: string)

  /**
   * The request `migrate` ends up running and the transform it applies: a
   * pack becomes its request and loses the transform; anything other than a
   * pack or a request is refused.
   */
  function Plan(content: Content, transform: Option<Element -> Element>): (r: Result<(DataBus, Option<Element -> Element>), Error>)
    requires content.Pack? ==> PackValid(content.pack)
    ensures content.Unsupported? ==> r == Err(UnsupportedContent)
    ensures content.Bus? ==> r == Ok((content.bus, transform))
    ensures content.Pack? ==> (r.Ok? <==> ToDataBus(content.pack).Ok?)
    ensures content.Pack? && r.Ok? ==> r.value == (ToDataBus(content.pack).value, None)
    ensures content.Pack? && r.Err? ==> r.error == ToDataBus(content.pack).error
  {
    match content
    case Pack(pack) =>
      (match ToDataBus(pack)
       case Err(e) => Err(e)
       case Ok(bus) => Ok((bus, None)))
    case Bus(bus) => Ok((bus, transform))
    case Unsupported(_) => Err(UnsupportedContent)
  }

  /** A pack is migrated without the caller's transform, whatever it is. */
  lemma PackIgnoresTransform(pack: ContentPack, transform: Option<Element -> Element>)
    requires PackValid(pack)
    ensures Plan(Pack(pack), transform) == Plan(Pack(pack), None)
    ensures |pack.kinds| == 0 <==> Plan(Pack(pack), transform) == Err(EmptyContentPack)
    ensures Plan(Pack(pack), transform).Ok? ==> Plan(Pack(pack), transform).value.1 == None
  {
  }

  class Xogger {
    const src: Client
    const dest: Client

    constructor(src: Client, dest: Client)
      ensures this.src == src && this.dest == dest
    {
      this.src := src;
      this.dest := dest;
    }

    /**
     * `aiter_paginate`, consumed to the end: the pages read, the error that
     * ended the run if any, and the request with its last cursor written.
     */
    method Paginate<B(==)>(render: B -> Result<Element, Error>, advance: (B, int) -> B, databus: B,
                           transform: Option<Element -> Element>)
      returns (pages: seq<Page>, failure: Option<Error>, last: B)
      modifies src
      ensures var t := PaginateSpec(render, advance, databus, Answers(old(src.server)), transform, 1);
        && pages == PagesOf(t.rounds) && failure == t.failure && last == t.last
        && src.Sent(old(src.posted), old(src.server), Requests(t))
      ensures src.auth == old(src.auth)
    {
      var bus := databus;
      var n := 1;
      pages := [];
      ghost var done: seq<Round<B>> := [];
      ghost var answers := Answers(src.server);
      ghost var whole := PaginateSpec(render, advance, databus, answers, transform, 1);
      while true
        invariant whole == Prepend(done, PaginateSpec(render, advance, bus, Drop(answers, |done|), transform, n))
        invariant n == |done| + 1 && pages == PagesOf(done)
        invariant src.auth == old(src.auth) && src.Sent(old(src.posted), old(src.server), RequestsOf(done))
        decreases |src.server|
      {
        var next, pages', failure', round := Turn(render, advance, bus, n, pages, transform, old(src.posted), old(src.server), done, whole);
        if next.None? {
          return pages', failure', bus;
        }
        pages := pages';
        done := done + [round];
        bus := next.value;
        n := n + 1;
      }
    }

    /**
     * One turn of `aiter_paginate` over a run of which `done` is the part
     * already read, with `pages` its pages, POSTed since the log was `log`
     * and the script `script`: either the run ends here, with all its pages
     * and its error, or it goes on from `next`, the request with the cursor
     * written, one round more done.
     */
    method Turn<B(==)>(render: B -> Result<Element, Error>, advance: (B, int) -> B, bus: B, n: nat, pages: seq<Page>,
                       transform: Option<Element -> Element>, ghost log: seq<Post>, ghost script: seq<Exchange>,
                       ghost done: seq<Round<B>>, ghost whole: Trace<B>)
      returns (next: Option<B>, pages': seq<Page>, failure: Option<Error>, ghost round: Round<B>)
      requires whole == Prepend(done, PaginateSpec(render, advance, bus, Drop(Answers(script), |done|), transform, n))
      requires pages == PagesOf(done) && src.Sent(log, script, RequestsOf(done))
      modifies src
      ensures src.auth == old(src.auth)
      ensures next.None? ==>
        && pages' == PagesOf(whole.rounds) && failure == whole.failure && whole.last == bus
        && src.Sent(log, script, Requests(whole))
      ensures next.Some? ==>
        && whole == Prepend(done + [round], PaginateSpec(render, advance, next.value, Drop(Answers(script), |done| + 1), transform, n + 1))
        && pages' == PagesOf(done + [round])
        && src.Sent(log, script, RequestsOf(done + [round]))
        && |src.server| < old(|src.server|)
    {
      var request, call := Fetch(render, bus, log, script, RequestsOf(done));
      round := Round(bus, Bare(""), Page(n, Bare("")), None);
      if request.Err? {
        RenderFails(render, advance, bus, Drop(Answers(script), |done|), transform, n, done, whole);
        return None, pages, Some(request.error), round;
      }
      if call.Err? {
        PostFails(render, advance, bus, Drop(Answers(script), |done|), transform, n, done, whole);
        return None, pages, Some(call.error), round;
      }
      var step;
      step, round := Settle(render, advance, bus, n, transform, Answers(script), done, whole, request.value, call.value);
      pages' := pages + [step.page];
      if step.Final? {
        return None, pages', None, round;
      }
      next, failure := Some(advance(bus, step.skip)), None;
    }

    /**
     * The end of a turn whose POST was answered with `answer`: the page is
     * the transformed payload, the last when the reply has no cursor; the
     * round joins the part of the run done.
     */
    method Settle<B(==)>(render: B -> Result<Element, Error>, advance: (B, int) -> B, bus: B, n: nat,
                         transform: Option<Element -> Element>, ghost answers: seq<Answer>,
                         ghost done: seq<Round<B>>, ghost whole: Trace<B>, request: Element, answer: (Element, Option<int>))
      returns (step: Step, ghost round: Round<B>)
      requires whole == Prepend(done, PaginateSpec(render, advance, bus, Drop(answers, |done|), transform, n))
      requires render(bus) == Ok(request) && FirstAnswer(Drop(answers, |done|)) == Ok(answer)
      ensures !step.Halted? && round.page == step.page && round.request == request
      ensures PagesOf(done + [round]) == PagesOf(done) + [step.page]
      ensures RequestsOf(done + [round]) == RequestsOf(done) + [request]
      ensures step.Final? ==> whole.rounds == done + [round] && whole.failure.None? && whole.last == bus
                              && Requests(whole) == RequestsOf(done) + [request]
      ensures step.Onward? ==>
        && whole == Prepend(done + [round], PaginateSpec(render, advance, advance(bus, step.skip), Drop(answers, |done| + 1), transform, n + 1))
        && |done| < |answers|
    {
      var (resp, skip) := answer;
      var page := Page(n, Apply(transform, resp));
      round := Round(bus, request, page, skip);
      RoundsGrow(done, round);
      if skip.None? {
        LastPage(render, advance, bus, Drop(answers, |done|), transform, n, done, whole, request, resp);
        return Final(page), round;
      }
      NextPage(render, advance, bus, answers, |done|, transform, n, done, whole, request, resp, skip.value);
      step := Onward(page, skip.value);
    }

    /**
     * One round's request to the source: render `bus` and, when it renders,
     * POST it and read the reply. `sent` are the requests POSTed since the
     * log was `log` and the script was `script`.
     */
    method Fetch<B>(render: B -> Result<Element, Error>, bus: B, ghost log: seq<Post>, ghost script: seq<Exchange>, ghost sent: seq<Element>)
      returns (request: Result<Element, Error>, call: Answer)
      requires src.Sent(log, script, sent)
      modifies src
      ensures src.auth == old(src.auth) && request == render(bus)
      ensures request.Err? ==> src.Sent(log, script, sent)
      ensures request.Ok? ==> call == FirstAnswer(Drop(Answers(script), |sent|)) && src.Sent(log, script, sent + [request.value])
    {
      request := render(bus);
      if request.Err? {
        return request, Err(Unreachable);
      }
      AnswersStep(src.server);
      AnswersDrop(script, |sent|);
      call := src.RunXog(request.value);
      PostedOne(log, src.xogCtx, src.auth, sent, request.value);
      DroppedOne(script, |sent|);
    }

    /**
     * One page POSTed to the destination. `delivered` are the pages POSTed
     * since the log was `log` and the script was `script`.
     */
    method Deliver(payload: Element, ghost log: seq<Post>, ghost script: seq<Exchange>, ghost delivered: seq<Element>)
      returns (written: Answer)
      requires dest.Sent(log, script, delivered)
      modifies dest
      ensures dest.auth == old(dest.auth)
      ensures written == FirstAnswer(Drop(Answers(script), |delivered|))
      ensures dest.Sent(log, script, delivered + [payload])
    {
      AnswersStep(dest.server);
      AnswersDrop(script, |delivered|);
      written := dest.RunXog(payload);
      PostedOne(log, dest.xogCtx, dest.auth, delivered, payload);
      DroppedOne(script, |delivered|);
    }

    /**
     * `migrate`: both clients must be logged in; a pack is migrated as its
     * request without the transform; a request is read page by page from
     * `src`, each page POSTed to `dest`; the pages read are returned.
     * `after` is the caller's content as the call leaves it: a request that
     * was read carries the last cursor written into its `skip` argument,
     * while a pack is unchanged (its request is a new object).
     */
    method Migrate(content: Content, transform: Option<Element -> Element>) returns (r: Result<seq<Element>, Error>, after: Content)
      requires src != dest
      requires content.Pack? ==> PackValid(content.pack)
      modifies src, dest
      decreases if content.Pack? then 1 else 0
      ensures src.auth == old(src.auth) && dest.auth == old(dest.auth)
      ensures old(src.auth).None? ==> r == Err(NotLoggedIn("src"))
      ensures old(src.auth).Some? && old(dest.auth).None? ==> r == Err(NotLoggedIn("dest"))
      ensures old(src.auth).None? || old(dest.auth).None? || Plan(content, transform).Err? ==>
        && src.posted == old(src.posted) && src.server == old(src.server)
        && dest.posted == old(dest.posted) && dest.server == old(dest.server)
      ensures old(src.auth).Some? && old(dest.auth).Some? && Plan(content, transform).Err? ==>
        r == Err(Plan(content, transform).error)
      ensures old(src.auth).Some? && old(dest.auth).Some? && Plan(content, transform).Ok? ==>
        var (bus, tf) := Plan(content, transform).value;
        var m := MigrateSpec(DataBusXml, WithSkip, bus, Answers(old(src.server)), Answers(old(dest.server)), tf);
        && r == m.result
        && src.posted == old(src.posted) + Posts(src.xogCtx, old(src.auth), Requests(m.pagination))
        && src.server == Drop(old(src.server), |Requests(m.pagination)|)
        && dest.posted == old(dest.posted) + Posts(dest.xogCtx, old(dest.auth), Payloads(m.pagination.rounds)[..m.posts])
        && dest.server == Drop(old(dest.server), m.posts)
      ensures old(src.auth).Some? && old(dest.auth).Some? && content.Bus? ==>
        after == Bus(PaginateSpec(DataBusXml, WithSkip, content.bus, Answers(old(src.server)), transform, 1).last)
      ensures !(old(src.auth).Some? && old(dest.auth).Some? && content.Bus?) ==> after == content
    {
      after := content;
      if src.auth.None? {
        return Err(NotLoggedIn("src")), after;
      }
      if dest.auth.None? {
        return Err(NotLoggedIn("dest")), after;
      }
      match content {
        case Pack(pack) =>
          var bus := ToDataBus(pack);
          if bus.Err? {
            return Err(bus.error), after;
          }
          var read;
          r, read := Migrate(Bus(bus.value), None);
        case Bus(bus) =>
          var last;
          r, last := Stream(bus, transform);
          after := Bus(last);
        case Unsupported(_) =>
          r := Err(UnsupportedContent);
      }
    }

    /**
     * The request branch of `migrate` with `_aiter_paginate_stream` feeding
     * it, in one order its concurrent parts can take: the source is read to
     * the end, then each page read is POSTed to `dest` in page order. `last`
     * is `databus` as the read leaves it, with the last cursor written.
     */
    method Stream(databus: DataBus, transform: Option<Element -> Element>) returns (r: Result<seq<Element>, Error>, last: DataBus)
      requires src != dest
      modifies src, dest
      ensures src.auth == old(src.auth) && dest.auth == old(dest.auth)
      ensures var m := MigrateSpec(DataBusXml, WithSkip, databus, Answers(old(src.server)), Answers(old(dest.server)), transform);
        && r == m.result
        && src.posted == old(src.posted) + Posts(src.xogCtx, old(src.auth), Requests(m.pagination))
        && src.server == Drop(old(src.server), |Requests(m.pagination)|)
        && dest.posted == old(dest.posted) + Posts(dest.xogCtx, old(dest.auth), Payloads(m.pagination.rounds)[..m.posts])
        && dest.server == Drop(old(dest.server), m.posts)
        && last == m.pagination.last
    {
      ghost var t := PaginateSpec(DataBusXml, WithSkip, databus, Answers(src.server), transform, 1);
      var pages, failure;
      pages, failure, last := Paginate(DataBusXml, WithSkip, databus, transform);
      if failure.Some? {
        return Err(failure.value), last;
      }
      BodiesOfPages(t.rounds);
      r := DeliverPages(Bodies(pages));
    }

    /**
     * The consumer's side of `migrate`: each page POSTed to `dest` in page
     * order; the first refusal raises and cancels the POSTs after it; when
     * every POST goes through, the pages are returned.
     */
    method DeliverPages(payloads: seq<Element>) returns (r: Result<seq<Element>, Error>)
      modifies dest
      ensures dest.auth == old(dest.auth)
      ensures var (k, e) := Delivery(Answers(old(dest.server)), |payloads|);
        && r == (if e.Some? then Err(e.value) else Ok(payloads))
        && dest.posted == old(dest.posted) + Posts(dest.xogCtx, old(dest.auth), payloads[..k])
        && dest.server == Drop(old(dest.server), k)
    {
      ghost var accepts := Answers(dest.server);
      var responses: seq<Element> := [];
      var i := 0;
      while i < |payloads|
        invariant accepts == Answers(old(dest.server))
        invariant i <= |payloads| && responses == payloads[..i]
        invariant dest.auth == old(dest.auth) && dest.Sent(old(dest.posted), old(dest.server), responses)
        invariant AcceptsFirst(accepts, i)
      {
        var written := Deliver(payloads[i], old(dest.posted), old(dest.server), responses);
        PrefixGrows(payloads, i);
        responses := responses + [payloads[i]];
        if written.Err? {
          DeliveryRefused(accepts, |payloads|, i);
          return Err(written.error);
        }
        AcceptsOneMore(accepts, i);
        i := i + 1;
      }
      DeliveryAccepted(accepts, |payloads|);
      assert payloads[..|payloads|] == payloads;
      r := Ok(responses);
    }
  }

  /** The prefix of `s` one longer. */
  lemma PrefixGrows<T>(s: seq<T>, i: nat)
    requires i < |s|
    ensures s[..i] + [s[i]] == s[..i + 1]
  {
  }

  /** One more POST extends the log by the POST of that body. */
  lemma PostedOne(log: seq<Post>, path: string, auth: Option<string>, bodies: seq<Element>, body: Element)
    ensures log + Posts(path, auth, bodies) + [Post(path, auth, body)] == log + Posts(path, auth, bodies + [body])
  {
    assert (bodies + [body])[..|bodies|] == bodies;
  }

  /** One more reply consumed. */
  lemma DroppedOne(script: seq<Exchange>, k: nat)
    ensures Rest(Drop(script, k)) == Drop(script, k + 1)
  {
    if k + 1 < |script| {
      assert script[k..][1..] == script[k + 1..];
    }
  }

  /** The summaries of a run continued by `t`. */
  lemma Summaries<B>(done: seq<Round<B>>, t: Trace<B>)
    ensures PagesOf(Prepend(done, t).rounds) == PagesOf(done) + PagesOf(t.rounds)
    ensures Payloads(Prepend(done, t).rounds) == Payloads(done) + Payloads(t.rounds)
    ensures Requests(Prepend(done, t)) == RequestsOf(done) + Requests(t)
  {
    PagesOfAppend(done, t.rounds);
    PayloadsAppend(done, t.rounds);
    RequestsOfAppend(done, t.rounds);
  }

  lemma {:induction false} PagesOfAppend<B>(xs: seq<Round<B>>, ys: seq<Round<B>>)
    ensures PagesOf(xs + ys) == PagesOf(xs) + PagesOf(ys)
    decreases |ys|
  {
    if ys != [] {
      var init := ys[..|ys| - 1];
      PagesOfAppend(xs, init);
      assert (xs + ys)[..|xs + ys| - 1] == xs + init;
    } else {
      assert xs + ys == xs;
    }
  }

  lemma {:induction false} PayloadsAppend<B>(xs: seq<Round<B>>, ys: seq<Round<B>>)
    ensures Payloads(xs + ys) == Payloads(xs) + Payloads(ys)
    decreases |ys|
  {
    if ys != [] {
      var init := ys[..|ys| - 1];
      PayloadsAppend(xs, init);
      assert (xs + ys)[..|xs + ys| - 1] == xs + init;
    } else {
      assert xs + ys == xs;
    }
  }

  lemma {:induction false} RequestsOfAppend<B>(xs: seq<Round<B>>, ys: seq<Round<B>>)
    ensures RequestsOf(xs + ys) == RequestsOf(xs) + RequestsOf(ys)
    decreases |ys|
  {
    if ys != [] {
      var init := ys[..|ys| - 1];
      RequestsOfAppend(xs, init);
      assert (xs + ys)[..|xs + ys| - 1] == xs + init;
    } else {
      assert xs + ys == xs;
    }
  }

  /** Moving one round from the rest of a run to the part done. */
  lemma PrependOne<B>(done: seq<Round<B>>, round: Round<B>, t: Trace<B>)
    ensures Prepend(done, Prepend([round], t)) == Prepend(done + [round], t)
  {
    assert done + ([round] + t.rounds) == (done + [round]) + t.rounds;
  }

  /** The per-round summaries grow by the new round. */
  lemma RoundsGrow<B>(done: seq<Round<B>>, round: Round<B>)
    ensures PagesOf(done + [round]) == PagesOf(done) + [round.page]
    ensures Payloads(done + [round]) == Payloads(done) + [round.page.payload]
    ensures RequestsOf(done + [round]) == RequestsOf(done) + [round.request]
  {
    assert (done + [round])[..|done|] == done;
  }
}

=== FILE: text.dfy ===
/**
 * Text encodings the wire format relies on: Python's `str(int)` and `int(str)`
 * for decimal integers, `strftime` zero padding, and `",".join` together with
 * its inverse, `str.split`.
 */
module Text {
  import opened Wrappers

  predicate IsDigit(c: char) { '0' <= c <= '9' }

  predicate AllDigits(s: string) { forall i :: 0 <= i < |s| ==> IsDigit(s[i]) }

  function DigitChar(d: nat): (c: char)
    requires d < 10
    ensures IsDigit(c) && c as int - '0' as int == d
  {
    ('0' as int + d) as char
  }

  function DigitValue(c: char): nat
    requires IsDigit(c)
  {
    c as int - '0' as int
  }

  /** The value of a string of decimal digits; leading zeros are allowed, as `int("007")` allows them. */
  function DigitsValue(s: string): nat
    requires AllDigits(s)
  {
    if s == [] then 0 else DigitsValue(s[..|s| - 1]) * 10 + DigitValue(s[|s| - 1])
  }

  /** Python's `str(n)` for a natural number: decimal digits without a leading zero. */
  function NatToDecimal(n: nat): (s: string)
    ensures |s| >= 1 && AllDigits(s)
    ensures |s| > 1 ==> s[0] != '0'
  {
    if n < 10 then [DigitChar(n)] else NatToDecimal(n / 10) + [DigitChar(n % 10)]
  }

  /** Python's `str(i)` for an integer: a minus sign for negative values, then the digits. */
  function IntToDecimal(i: int): (s: string)
    ensures |s| >= 1
    ensures s[0] == '-' <==> i < 0
    ensures AllDigits(if i < 0 then s[1..] else s)
    ensures i >= 0 && |s| > 1 ==> s[0] != '0'
    ensures i < 0 ==> |s| >= 2 && s[1] != '0'
  {
    if i < 0 then "-" + NatToDecimal(-i) else NatToDecimal(i)
  }

  /**
   * Python's `int(s)` on an optional sign followed by ASCII digits; any other
   * text is refused (`ValueError`), which the model reports as `None`.
   */
  function ParseInt(s: string): (r: Option<int>)
    ensures r.Some? <==> (s != [] && AllDigits(s)) || (|s| >= 2 && s[0] in "+-" && AllDigits(s[1..]))
    ensures AllDigits(s) && s != [] ==> r == Some(DigitsValue(s) as int)
    ensures |s| >= 2 && s[0] == '-' && AllDigits(s[1..]) ==> r == Some(-(DigitsValue(s[1..]) as int))
    ensures |s| >= 2 && s[0] == '+' && AllDigits(s[1..]) ==> r == Some(DigitsValue(s[1..]) as int)
  {
    if |s| >= 2 && s[0] == '-' && AllDigits(s[1..]) then Some(-(DigitsValue(s[1..]) as int))
    else if |s| >= 2 && s[0] == '+' && AllDigits(s[1..]) then Some(DigitsValue(s[1..]) as int)
    else if |s| >= 1 && AllDigits(s) then Some(DigitsValue(s) as int)
    else None
  }

  lemma {:induction false} DecimalDigitsValue(n: nat)
    ensures DigitsValue(NatToDecimal(n)) == n
  {
    if n >= 10 {
      var s := NatToDecimal(n);
      DecimalDigitsValue(n / 10);
      assert s[..|s| - 1] == NatToDecimal(n / 10);
    }
  }

  /** Reading back the decimal text of any integer gives that integer. */
  lemma DecimalRoundTrip(i: int)
    ensures ParseInt(IntToDecimal(i)) == Some(i)
  {
    if i < 0 {
      DecimalDigitsValue(-i);
      assert IntToDecimal(i)[1..] == NatToDecimal(-i);
    } else {
      DecimalDigitsValue(i);
    }
  }

  /** `strftime`'s two-digit zero-padded field (`%m`, `%d`, `%H`, `%M`, `%S`). */
  function Pad2(n: nat): (s: string)
    requires n < 100
    ensures |s| == 2 && AllDigits(s) && DigitsValue(s) == n
  {
    var s := [DigitChar(n / 10), DigitChar(n % 10)];
    assert s[..1] == [DigitChar(n / 10)] && s[..1][..0] == [];
    assert DigitsValue(s[..1]) == n / 10;
    assert DigitsValue(s) == DigitsValue(s[..1]) * 10 + n % 10;
    s
  }

  /** `strftime`'s `%Y` for a year of four digits. */
  function Pad4(n: nat): (s: string)
    requires n < 10000
    ensures |s| == 4 && AllDigits(s) && DigitsValue(s) == n
  {
    var s := Pad2(n / 100) + Pad2(n % 100);
    assert s[..3] == Pad2(n / 100) + [s[2]];
    assert s[..2] == Pad2(n / 100);
    s
  }

  /** Python's `sep.join(parts)`: the parts in order, with `sep` between neighbours only. */
  function Join(parts: seq<string>, sep: char): string
  {
    if |parts| == 0 then ""
    else if |parts| == 1 then parts[0]
    else parts[0] + [sep] + Join(parts[1..], sep)
  }

  /** The position of the first `c` in `s`. */
  function IndexOf(s: string, c: char): (i: nat)
    requires c in s
    ensures i < |s| && s[i] == c && c !in s[..i]
  {
    if s[0] == c then 0 else 1 + IndexOf(s[1..], c)
  }

  /** Python's `s.split(sep)`: the pieces between separators, `[""]` for the empty string. */
  function Split(s: string, sep: char): (parts: seq<string>)
    ensures |parts| >= 1
    decreases |s|
  {
    if sep !in s then [s]
    else
      var i := IndexOf(s, sep);
      [s[..i]] + Split(s[i + 1..], sep)
  }

  lemma IndexOfAfterPrefix(a: string, sep: char, b: string)
    requires sep !in a
    ensures IndexOf(a + [sep] + b, sep) == |a|
  {
    var s := a + [sep] + b;
    assert s[..|a|] == a && s[|a|] == sep;
    var i := IndexOf(s, sep);
    assert i <= |a| ==> s[..i] == a[..i];
  }

  /**
   * `Join` loses nothing when no part contains the separator: splitting the
   * joined text gives the parts back, in order.
   */
  lemma {:induction false} SplitJoin(parts: seq<string>, sep: char)
    requires |parts| >= 1
    requires forall k :: 0 <= k < |parts| ==> sep !in parts[k]
    ensures Split(Join(parts, sep), sep) == parts
  {
    if |parts| > 1 {
      var rest := Join(parts[1..], sep);
      var s := parts[0] + [sep] + rest;
      IndexOfAfterPrefix(parts[0], sep, rest);
      assert s[..|parts[0]|] == parts[0];
      assert s[|parts[0]| + 1..] == rest;
      SplitJoin(parts[1..], sep);
    }
  }
}

=== FILE: tree.dfy ===
/**
 * An XML element as a value: tag (a namespace prefix such as `xog:` is part
 * of the tag), attributes in insertion order, optional text, children in
 * document order; and the ElementPath lookups the protocol code uses.
 */
module Tree {
  import opened Wrappers

  datatype Element = Element(
    tag: string,
    attrs: seq<(string, string)>,
    text: Option<string>,
    children: seq<Element>)

  /** An element with only a tag, as `create_element(tag)` makes it. */
  function Bare(tag: string): (e: Element)
    ensures e.tag == tag && e.attrs == [] && e.text == None && e.children == []
  {
    Element(tag, [], None, [])
  }

  /** An element with a tag and text, as `create_element` followed by `el.text = ...`. */
  function WithText(tag: string, text: string): (e: Element)
    ensures e.tag == tag && e.attrs == [] && e.text == Some(text) && e.children == []
  {
    Element(tag, [], Some(text), [])
  }

  /** `el.get(name)`: the value of the attribute `name`, if present. */
  function GetAttr(e: Element, name: string): (r: Option<string>)
    ensures r.Some? <==> exists i :: 0 <= i < |e.attrs| && e.attrs[i].0 == name
    ensures r.Some? ==> (name, r.value) in e.attrs
  {
    Lookup(e.attrs, name)
  }

  function Lookup<V>(pairs: seq<(string, V)>, key: string): (r: Option<V>)
    ensures r.Some? <==> exists i :: 0 <= i < |pairs| && pairs[i].0 == key
    ensures r.Some? ==> (key, r.value) in pairs
  {
    if pairs == [] then None
    else if pairs[0].0 == key then Some(pairs[0].1)
    else
      var r := Lookup(pairs[1..], key);
      assert forall i :: 1 <= i < |pairs| ==> pairs[i] == pairs[1..][i - 1];
      r
  }

  /** The first element of `es` with tag `tag`. */
  function FirstWithTag(es: seq<Element>, tag: string): (r: Option<Element>)
    ensures r.None? <==> forall i :: 0 <= i < |es| ==> es[i].tag != tag
    ensures r.Some? ==> exists i :: 0 <= i < |es| && es[i] == r.value && es[i].tag == tag
                                    && forall j :: 0 <= j < i ==> es[j].tag != tag
  {
    if es == [] then None
    else if es[0].tag == tag then Some(es[0])
    else
      var r := FirstWithTag(es[1..], tag);
      assert forall i :: 1 <= i < |es| ==> es[i] == es[1..][i - 1];
      r
  }

  /** The elements of the forest `cs` and of everything below them, in document order. */
  function Preorder(cs: seq<Element>): seq<Element>
    decreases cs
  {
    if cs == [] then [] else [cs[0]] + Preorder(cs[0].children) + Preorder(cs[1..])
  }

  /** Every element strictly below `e`, in document order: what `.//` ranges over. */
  function Descendants(e: Element): seq<Element>
  {
    Preorder(e.children)
  }

  /** `el.find(tag)`: the first child with that tag. */
  function FindChild(e: Element, tag: string): Option<Element>
  {
    FirstWithTag(e.children, tag)
  }

  /** `el.find(".//tag")`: the first element below `e` with that tag, in document order. */
  function FindDescendant(e: Element, tag: string): Option<Element>
  {
    FirstWithTag(Descendants(e), tag)
  }

  /** `el.findtext(tag)`: the first such child's text, `""` when it has none, `None` when there is no such child. */
  function ChildText(e: Element, tag: string): (r: Option<string>)
    ensures r.None? <==> FindChild(e, tag).None?
  {
    match FindChild(e, tag)
    case None => None
    case Some(c) => Some(c.text.GetOr(""))
  }

  /** `el.findtext(".//tag")`: as `ChildText`, searching the whole subtree below `e`. */
  function DescendantText(e: Element, tag: string): (r: Option<string>)
    ensures r.None? <==> FindDescendant(e, tag).None?
  {
    match FindDescendant(e, tag)
    case None => None
    case Some(c) => Some(c.text.GetOr(""))
  }

  /** `el.append(child)` on a value: the child goes last, nothing else changes. */
  function AppendChild(e: Element, child: Element): (r: Element)
    ensures r.tag == e.tag && r.attrs == e.attrs && r.text == e.text
    ensures r.children == e.children + [child]
  {
    e.(children := e.children + [child])
  }
}

=== FILE: wire.dfy ===
/**
 * The wire encoding of `ca_migrate.xml`: scalar serialisation, the SOAP 1.1
 * envelope (Envelope, Header, Body) every XOG call travels in, and the
 * LookupQuery filter that `make_content_package_query` appends to a node.
 */
module Wire {
  import opened Wrappers
  import opened Text
  import opened Tree
  import opened Errors

  type Year = y: int | 1000 <= y <= 9999 witness 1000
  type Month = m: int | 1 <= m <= 12 witness 1
  type Day = d: int | 1 <= d <= 31 witness 1
  type Hour = h: int | 0 <= h <= 23
  type Minute = m: int | 0 <= m <= 59
  type Second = s: int | 0 <= s <= 59

  /**
   * A Python value handed to `serialize`. Python's `bool` is a subclass of
   * `int` and `datetime` a subclass of `date`; the `IsInstance...` predicates
   * below say which `isinstance` tests each kind passes.
   */
  datatype Value =
    | Bool(b: bool)
    | Int(i: int)
    | DateTime(year: Year, month: Month, day: Day, hour: Hour, minute: Minute, second: Second)
    | Date(year: Year, month: Month, day: Day)
    | Str(s: string)
    | Other(typeName: string)

  predicate IsInstanceBool(v: Value) { v.Bool? }
  predicate IsInstanceInt(v: Value) { v.Bool? || v.Int? }
  predicate IsInstanceDateTime(v: Value) { v.DateTime? }
  predicate IsInstanceDate(v: Value) { v.Date? || v.DateTime? }
  predicate IsInstanceStr(v: Value) { v.Str? }

  /** Python's `str(o)` for an instance of `int`, which a `bool` also is. */
  function IntInstanceText(v: Value): string
    requires IsInstanceInt(v)
  {
    match v
    case Int(i) => IntToDecimal(i)
    case Bool(b) => if b then "True" else "False"
  }

  /** `strftime("%Y-%m-%d")`. */
  function DateText(v: Value): string
    requires IsInstanceDate(v)
  {
    Pad4(v.year) + "-" + Pad2(v.month) + "-" + Pad2(v.day)
  }

  /** `strftime("%Y-%m-%dT%H:%M:%S")`. */
  function DateTimeText(v: Value): string
    requires IsInstanceDateTime(v)
  {
    DateText(v) + "T" + Pad2(v.hour) + ":" + Pad2(v.minute) + ":" + Pad2(v.second)
  }

  /**
   * `serialize(o, custom_field)`: the cases are tried in the source's order,
   * so a `bool` is caught before the `int` case and a `datetime` before the
   * `date` case. Only a value of none of the five kinds is refused.
   */
  function Serialize(v: Value, customField: bool): (r: Result<string, Error>)
    ensures r.Err? <==> v.Other?
    ensures r.Err? ==> r.error == UnsupportedValue(v.typeName)
  {
    if IsInstanceBool(v) && customField then Ok(if v.b then "1" else "0")
    else if IsInstanceBool(v) then Ok(if v.b then "true" else "false")
    else if IsInstanceInt(v) then Ok(IntInstanceText(v))
    else if IsInstanceDateTime(v) then Ok(DateTimeText(v))
    else if IsInstanceDate(v) then Ok(DateText(v))
    else if IsInstanceStr(v) then Ok(v.s)
    else Err(UnsupportedValue(v.typeName))
  }

  /** A custom boolean field takes `1`/`0`; any other boolean `true`/`false`, never a digit. */
  lemma SerializeBool(b: bool, customField: bool)
    ensures customField ==> Serialize(Bool(b), customField) == Ok(if b then "1" else "0")
    ensures !customField ==> Serialize(Bool(b), customField) == Ok(if b then "true" else "false")
    ensures !customField ==> !AllDigits(Serialize(Bool(b), customField).value)
  {
    if !customField {
      var t := Serialize(Bool(b), customField).value;
      assert !IsDigit(t[0]);
    }
  }

  /** An integer renders as decimal text that reads back as the same integer, whatever `customField` says. */
  lemma SerializeIntRoundTrip(i: int, customField: bool)
    ensures Serialize(Int(i), customField) == Ok(IntToDecimal(i))
    ensures ParseInt(Serialize(Int(i), customField).value) == Some(i)
  {
    DecimalRoundTrip(i);
  }

  /** A date renders as `YYYY-MM-DD`; each field reads back from its fixed position. */
  lemma SerializeDateLayout(v: Value, customField: bool)
    requires v.Date?
    ensures Serialize(v, customField).Ok?
    ensures var t := Serialize(v, customField).value;
      && |t| == 10 && t[4] == '-' && t[7] == '-'
      && AllDigits(t[0..4]) && DigitsValue(t[0..4]) == v.year
      && AllDigits(t[5..7]) && DigitsValue(t[5..7]) == v.month
      && AllDigits(t[8..10]) && DigitsValue(t[8..10]) == v.day
  {
    var t := DateText(v);
    assert t[0..4] == Pad4(v.year);
    assert t[5..7] == Pad2(v.month);
    assert t[8..10] == Pad2(v.day);
  }

  /**
   * A datetime renders as `YYYY-MM-DDTHH:MM:SS` (the datetime case wins over
   * the date case); each field reads back from its fixed position.
   */
  lemma SerializeDateTimeLayout(v: Value, customField: bool)
    requires v.DateTime?
    ensures Serialize(v, customField).Ok?
    ensures var t := Serialize(v, customField).value;
      && |t| == 19 && t[4] == '-' && t[7] == '-' && t[10] == 'T' && t[13] == ':' && t[16] == ':'
      && AllDigits(t[0..4]) && DigitsValue(t[0..4]) == v.year
      && AllDigits(t[5..7]) && DigitsValue(t[5..7]) == v.month
      && AllDigits(t[8..10]) && DigitsValue(t[8..10]) == v.day
      && AllDigits(t[11..13]) && DigitsValue(t[11..13]) == v.hour
      && AllDigits(t[14..16]) && DigitsValue(t[14..16]) == v.minute
      && AllDigits(t[17..19]) && DigitsValue(t[17..19]) == v.second
  {
    var t := DateTimeText(v);
    assert t[0..4] == Pad4(v.year);
    assert t[5..7] == Pad2(v.month);
    assert t[8..10] == Pad2(v.day);
    assert t[11..13] == Pad2(v.hour);
    assert t[14..16] == Pad2(v.minute);
    assert t[17..19] == Pad2(v.second);
  }

  /** A string passes through unchanged; a value of any other kind is a type error. */
  lemma SerializeStrAndOther(v: Value, customField: bool)
    ensures v.Str? ==> Serialize(v, customField) == Ok(v.s)
    ensures v.Other? ==> Serialize(v, customField) == Err(UnsupportedValue(v.typeName))
  {
  }

  /** The credentials `run_xog` and `login` pass to `make_envelope` after the body. */
  function AuthChildren(creds: seq<string>): seq<Element>
  {
    if |creds| == 1 then [WithText("xog:SessionID", creds[0])]
    else if |creds| == 2 then [WithText("xog:Username", creds[0]), WithText("xog:Password", creds[1])]
    else []
  }

  /**
   * `make_envelope(body_content, *args)`: a SOAP 1.1 Envelope holding a
   * Header, with an `xog:Auth` block when credentials are given, and a Body
   * holding `body_content` itself.
   */
  function MakeEnvelope(body: Element, creds: seq<string>): (env: Element)
    ensures env.tag == "soapenv:Envelope" && env.attrs == [] && env.text == None
    ensures |env.children| == 2
    ensures env.children[0].tag == "soapenv:Header" && env.children[1].tag == "soapenv:Body"
    ensures env.children[1].children == [body]
    ensures forall i :: 0 <= i < 2 ==> env.children[i].attrs == [] && env.children[i].text == None
  {
    var header := Element("soapenv:Header", [], None,
      if |creds| == 0 then [] else [Element("xog:Auth", [], None, AuthChildren(creds))]);
    Element("soapenv:Envelope", [], None, [header, Element("soapenv:Body", [], None, [body])])
  }

  function EnvelopeHeader(env: Element): Element
    requires |env.children| >= 1
  {
    env.children[0]
  }

  /** How the Header depends on the number of credentials. */
  lemma EnvelopeAuth(body: Element, creds: seq<string>)
    ensures var h := EnvelopeHeader(MakeEnvelope(body, creds));
      && (|creds| == 0 <==> h.children == [])
      && (|creds| > 0 ==> |h.children| == 1 && h.children[0].tag == "xog:Auth")
      && (|creds| == 1 ==> h.children[0].children == [WithText("xog:SessionID", creds[0])])
      && (|creds| == 2 ==> h.children[0].children
                            == [WithText("xog:Username", creds[0]), WithText("xog:Password", creds[1])])
      && (|creds| > 2 ==> h.children[0].children == [])
  {
  }

  /**
   * A session id and a user name never travel together, and the session id is
   * exactly the one credential passed: reading it back gives the token.
   */
  lemma {:induction false} SessionIdExcludesUsername(body: Element, creds: seq<string>)
    ensures var h := EnvelopeHeader(MakeEnvelope(body, creds));
      && (DescendantText(h, "xog:SessionID").Some? <==> |creds| == 1)
      && (|creds| == 1 ==> DescendantText(h, "xog:SessionID") == Some(creds[0]))
      && (DescendantText(h, "xog:Username").Some? <==> |creds| == 2)
      && !(FindDescendant(h, "xog:SessionID").Some? && FindDescendant(h, "xog:Username").Some?)
  {
    var h := EnvelopeHeader(MakeEnvelope(body, creds));
    if |creds| > 0 {
      var auth := h.children[0];
      var below := AuthChildren(creds);
      assert Preorder(below) == below by {
        PreorderOfLeaves(below);
      }
      assert Descendants(h) == [auth] + below by {
        assert Preorder([auth]) == [auth] + Preorder(below) + Preorder([]);
      }
    }
  }

  /** A forest of childless elements is its own document order. */
  lemma {:induction false} PreorderOfLeaves(es: seq<Element>)
    requires forall i :: 0 <= i < |es| ==> es[i].children == []
    ensures Preorder(es) == es
  {
    if es != [] {
      PreorderOfLeaves(es[1..]);
    }
  }

  /** The `code` argument of `make_content_package_query`: one code or a sequence of codes. */
  datatype Codes = One(code: string) | Many(codes: seq<string>)

  /** The default `filter_by`. */
  const DefaultFilterBy: string := "code"

  /** The `query_type` element that `make_content_package_query` appends. */
  function PackageQuery(queryType: string, code: Codes, filterBy: string): Element
  {
    var criteria := if code.One? then "EQUALS" else "OR";
    var text := if code.One? then code.code else Join(code.codes, ',');
    Element(queryType, [], None, [Element("Filter", [("name", filterBy), ("criteria", criteria)], Some(text), [])])
  }

  /**
   * The appended query holds exactly one Filter on `filterBy`: EQUALS with the
   * code itself, or OR with the codes comma-joined, which split back apart
   * when no code contains a comma.
   */
  lemma PackageQueryShape(queryType: string, code: Codes, filterBy: string)
    ensures var q := PackageQuery(queryType, code, filterBy);
      && q.tag == queryType && |q.children| == 1
      && q.children[0].tag == "Filter"
      && GetAttr(q.children[0], "name") == Some(filterBy)
      && GetAttr(q.children[0], "criteria") == Some(if code.One? then "EQUALS" else "OR")
      && (code.One? ==> q.children[0].text == Some(code.code))
      && ((code.Many? && |code.codes| >= 1 && forall k :: 0 <= k < |code.codes| ==> ',' !in code.codes[k]) ==>
            Split(q.children[0].text.value, ',') == code.codes)
  {
    var f := PackageQuery(queryType, code, filterBy).children[0];
    assert f.attrs[1..] == [("criteria", if code.One? then "EQUALS" else "OR")];
    assert Lookup(f.attrs[1..], "criteria") == Some(if code.One? then "EQUALS" else "OR");
    if code.Many? && |code.codes| >= 1 && (forall k :: 0 <= k < |code.codes| ==> ',' !in code.codes[k]) {
      SplitJoin(code.codes, ',');
    }
  }

  /** An lxml element the caller holds a reference to, so that changes to it are visible to the caller. */
  class Node {
    var element: Element

    constructor (e: Element)
      ensures element == e
    {
      element := e;
    }
  }

  /**
   * `make_content_package_query(node, query_type, code, filter_by)`: appends
   * the query to the caller's node in place and returns that same node.
   */
  method MakeContentPackageQuery(node: Node, queryType: string, code: Codes, filterBy: string) returns (r: Node)
    modifies node
    ensures r == node
    ensures node.element == AppendChild(old(node.element), PackageQuery(queryType, code, filterBy))
  {
    node.element := AppendChild(node.element, PackageQuery(queryType, code, filterBy));
    r := node;
  }
}

=== FILE: wrappers.dfy ===
/** Option and Result: the model's stand-ins for Python's `None` and for raised exceptions. */
module Wrappers {

  datatype Option<+T> = None | Some(value: T) {
    function GetOr(default: T): T {
      match this
      case Some(v) => v
      case None => default
    }
  }

  datatype Result<+R, +E> = Ok(value: R) | Err(error: E)
}

/** Running a sequence of fallible steps in order: the first failure wins, as with Python exceptions. */
module Steps {
  import opened Wrappers

  /** All step results in order, or the error of the first step that failed. */
  function Collect<T, E>(rs: seq<Result<T, E>>): (r: Result<seq<T>, E>)
    ensures r.Ok? <==> forall i :: 0 <= i < |rs| ==> rs[i].Ok?
    ensures r.Ok? ==> |r.value| == |rs| && forall i :: 0 <= i < |rs| ==> rs[i] == Ok(r.value[i])
  {
    if rs == [] then Ok([])
    else
      match Collect(rs[..|rs| - 1])
      case Err(e) => Err(e)
      case Ok(vs) =>
        match rs[|rs| - 1]
        case Err(e) => Err(e)
        case Ok(v) => Ok(vs + [v])
  }

  /** One more successful step extends the collected prefix by its value. */
  lemma CollectExtend<T, E>(rs: seq<Result<T, E>>, i: nat, vs: seq<T>)
    requires i < |rs| && Collect(rs[..i]) == Ok(vs) && rs[i].Ok?
    ensures Collect(rs[..i + 1]) == Ok(vs + [rs[i].value])
  {
    assert rs[..i + 1][..i] == rs[..i];
  }

  /** When every step succeeds, the collected values are exactly theirs. */
  lemma CollectAllOk<T, E>(rs: seq<Result<T, E>>, vs: seq<T>)
    requires |rs| == |vs| && forall i :: 0 <= i < |rs| ==> rs[i] == Ok(vs[i])
    ensures Collect(rs) == Ok(vs)
  {
    var r := Collect(rs);
    assert r.Ok?;
    assert |r.value| == |vs|;
    forall i | 0 <= i < |vs| ensures r.value[i] == vs[i] {
      assert rs[i] == Ok(r.value[i]);
    }
    assert r.value == vs;
  }

  /** A failing step after a successful prefix decides the outcome: its error is the one reported. */
  lemma {:induction false} CollectFirstErr<T, E>(rs: seq<Result<T, E>>, i: nat)
    requires i < |rs| && Collect(rs[..i]).Ok? && rs[i].Err?
    ensures Collect(rs) == Err(rs[i].error)
    decreases |rs|
  {
    if |rs| > i + 1 {
      var front := rs[..|rs| - 1];
      assert front[..i] == rs[..i] && front[i] == rs[i];
      CollectFirstErr(front, i);
    } else {
      assert rs[..|rs| - 1] == rs[..i];
    }
  }
}
